=== FILE: README.md ===
# Module registry tooling: a Dafny model

This project models the deterministic parts of the module registry repository
and proves properties about them:

- **Release versions** (`version_manager.py`). This covers reading the `VERSION` file and falling back to `0.1.0`. It also covers the text `set_version` writes, the major/minor/patch bump rule, and the `CHANGELOG.md` rewrite done by `update_changelog`.
- **MCP pallet value types** (`pallets/mcp/src/lib.rs`). This covers `ProtocolVersion::new`, its constants and defaults, and the `Default` values of `ServerCapabilities` and `TransportConfig`. It also covers the byte-length bounds of the `BoundedVec` fields of `ServerInfo`, `ToolAnnotations`, `ToolInfo`, `PromptTemplate` and `ResourceInfo`.
- **The hard-coded value fixer** (`fix_hardcoded_values.py`). This covers:
  - the seven exclusion patterns, written out as string predicates and proved equal to their regular-expression meaning, including Python's `$`;
  - the import-presence check;
  - the insertion of the `from config import get_config` line;
  - the insertion of the `config = get_config()` call;
  - the result contract of `fix_file`.
- **The GitHub Actions checks** (`test_hooks.py`). These run over an abstract parsed YAML value with Python's `in`, indexing and iteration semantics. They cover the structure check, trigger normalisation and its warning, action-reference pinning, the truncation of tool output, and the summary counts of the workflow, linting and overall runs.
- **`validate_metadata`** (`mod_net_client/utils/validation.py`).

Each module is pure. File contents, the date, the YAML loader, the regular-expression engine and the outcomes of external tools are all inputs. The modules are:

- `Wrappers`
- `Text`, for Python string operations
- `VersionManager`
- `Changelog`
- `Mcp`
- `HardcodedValueFixer`
- `PyValue`, for parsed YAML values
- `WorkflowValidator`
- `LintSummary`
- `MetadataValidation`

## Model

| member | source | states |
|---|---|---|
| VersionManager.MatchTriple | version_manager.py:92-94 | A match is `digits.digits.digits`, split at its two dots, and its value is the three decimal values of the groups. |
| VersionManager.MatchTripleAccepts | version_manager.py:92-94 | Every text of the form `a.b.c` with non-empty ASCII digit groups is matched, giving the values of `a`, `b` and `c`. |
| VersionManager.GetCurrentVersion | version_manager.py:82-102 | A missing or unreadable file gives `(0,1,0)`. Any other result was matched from the stripped file text. |
| VersionManager.GetCurrentVersionSpec | version_manager.py:87-102 | Stripped text of the form `a.b.c` gives those three numbers. Any other text gives `(0,1,0)`. |
| VersionManager.VersionFileRoundTrip | version_manager.py:91-114 | The text `set_version` writes (`M.m.p` plus a newline) reads back as exactly `(M,m,p)`. |
| VersionManager.ParseBumpKind | version_manager.py:142-154 | Exactly `major`, `minor` and `patch` are accepted, each as its own kind. Every other text is an error. |
| VersionManager.Bump | version_manager.py:142-150 | The new version is greater in (major, minor, patch) order. A patch bump gives the least greater version. A minor bump gives the least version with the same major and a greater minor. A major bump gives the least version with a greater major. |
| VersionManager.BumpVersion | version_manager.py:130-161 | An invalid type is an error before anything is written. With a valid type, the new version is the bump of the current one by that kind, which is greater, and the VERSION text written is exactly `a.b.c` and a newline, which reads back as that version. A non-empty entry with an existing changelog that cannot be read is an error raised after that VERSION text is written. Otherwise the changelog is rewritten exactly when a non-empty entry is given, and then holds the changelog update of the old text (none when the file is missing) for the new version, the date and the entry. |
| VersionManager.InvalidBumpWritesNothing | version_manager.py:151-156 | An invalid type raises before anything is written: no version text and no changelog. |
| Changelog.UpdateChangelog | version_manager.py:163-238 | A new changelog is the Keep a Changelog preamble, the Unreleased header and the new entry block. An existing one is rewritten by the code as written, line-0 case included. |
| Changelog.FirstHeading | version_manager.py:226-230 | It finds the first line that starts with `##` and contains `[`, or reports that there is none. |
| Changelog.HeaderFound | version_manager.py:198-219 | With an Unreleased header at its first occurrence, both versions of the rewrite insert under that header. |
| Changelog.InsertsAtNextSection | version_manager.py:204-214 | The entry lands right before the first `\n## [` after the header. |
| Changelog.UnreleasedInsertsBeforeNextSection | version_manager.py:198-214 | With an Unreleased header and a later `\n## [`, the entry is inserted at that position. Deleting it gives back the old text. |
| Changelog.UnreleasedAppendsWithoutNextSection | version_manager.py:215-219 | With an Unreleased header and no later `\n## [`, the entry is appended. |
| Changelog.HeadingInsertionAsWritten | version_manager.py:222-234 | Without an Unreleased header and with the first heading on a line after line 0, the code as written agrees with the corrected rewrite: the stripped entry and a newline go in just after the newline that ends the line before that heading. |
| Changelog.HeadingInsertion | version_manager.py:222-234 | Without an Unreleased header, the stripped entry and a newline are inserted at the start of the first heading line. Cutting them out gives back the old text. |
| Changelog.HeadingAtLineZeroAppends | version_manager.py:232-236 | As written, a heading on line 0 makes the entry go to the end instead. |
| Changelog.SingleHeadingLine | version_manager.py:222-236 | For a one-line changelog that is a heading, the code as written appends, while the corrected rule prepends the stripped entry. |
| Changelog.HeadingAtLineZeroWitness | version_manager.py:232-236 | For `## [1.0.0]`, the code as written appends the entry after the old release, while the corrected rule puts it first. |
| Changelog.NoHeadingAppends | version_manager.py:222-236 | Without an Unreleased header and without any heading line, the entry is appended. |
| Changelog.LineOffsetSplits | version_manager.py:224-234 | The offset of line `k` cuts the joined text into the first `k` lines plus a newline and the rest. |
| Changelog.JoinInsert | version_manager.py:233-234 | Inserting a line into the list and joining is inserting that line and a newline into the text at the line's offset. |
| Mcp.NewProtocolVersion | pallets/mcp/src/lib.rs:69-75 | A decoded version is the one whose constant equals the input bytes. The only error is `UnsupportedVersion`. |
| Mcp.ProtocolVersionRoundTrip | pallets/mcp/src/lib.rs:62-75 | A version's constant decodes to that version. A byte string decodes to a version exactly when it is that version's constant. Every other byte string is unsupported. |
| Mcp.VersionConstantsDiffer | pallets/mcp/src/lib.rs:64-66 | The two constants `2024-11-05` and `2025-03-26` differ. |
| Mcp.ProtocolVersionDefaults | pallets/mcp/src/lib.rs:49-85 | The default is the `v_2024_11_05()` version, which is not `latest()`. The two constants decode to those versions. |
| Mcp.WithTools | pallets/mcp/src/lib.rs:478-489 | Overriding only `tools` sets it and leaves the other five fields unset. |
| Mcp.CapabilitiesDefault | pallets/mcp/src/lib.rs:111-126 | The default capabilities advertise nothing, and they are the only capabilities that advertise nothing. |
| Mcp.NewTransport | pallets/mcp/src/lib.rs:128-151 | An endpoint transport is built exactly when the endpoint fits in 256 bytes. It keeps the endpoint and is never the default `Stdio`. |
| Mcp.NewServerInfo | pallets/mcp/src/lib.rs:153-176 | Building succeeds exactly when the name fits 64 bytes, the description 256 and the metadata CID 64. The record then holds exactly the given values. A long name is reported as such. |
| Mcp.NewToolAnnotations | pallets/mcp/src/lib.rs:178-191 | Building succeeds exactly when the title fits 128 bytes, and the hints are kept. |
| Mcp.NewToolInfo | pallets/mcp/src/lib.rs:193-212 | Building succeeds exactly when the name fits 64, the description 256, the input and output schemas 2048 and the CID 64. The record then holds the given values. |
| Mcp.NewPromptTemplate | pallets/mcp/src/lib.rs:214-233 | Building succeeds exactly when the name fits 64, the description 256, the template 2048, the parameter schema 1024, the category 32 and the CID 64. The record then holds the given values. |
| Mcp.NewResourceInfo | pallets/mcp/src/lib.rs:235-254 | Building succeeds exactly when the name fits 64, the description and URI 256, and the MIME type and both CIDs 64. The record then holds the given values. |
| Mcp.ResourceInfoExample | pallets/mcp/src/lib.rs:569-587 | The resource of the unit test builds and keeps its server id, name, URI, content CID and active flag. |
| Mcp.NameTooLongRefused | pallets/mcp/src/lib.rs:220 | A 65-byte prompt name is refused whatever the other fields hold. |
| HardcodedValueFixer.ShouldExcludeFile | fix_hardcoded_values.py:41-54 | The string predicate holds exactly when one of the seven patterns has a `re.search` match, including `$` before a final newline. |
| HardcodedValueFixer.MatchDotStarSearch | fix_hardcoded_values.py:42-44 | The scan for `x.*y$` agrees with the regular-expression meaning. |
| HardcodedValueFixer.MatchAtEndSearch | fix_hardcoded_values.py:45-48 | The scan for `y$` agrees with the regular-expression meaning. |
| HardcodedValueFixer.ConfigAndTestFilesExcluded | fix_hardcoded_values.py:43-47 | Any path ending in `config.py` or `_test.py` is excluded. |
| HardcodedValueFixer.ExcludedArePython | fix_hardcoded_values.py:41-54 | Every excluded path ends in `.py`, once a final newline is dropped. |
| HardcodedValueFixer.ImportIndex | fix_hardcoded_values.py:64-72 | The insertion index is within the lines, and a positive index follows an import line. |
| HardcodedValueFixer.ImportIndexSpec | fix_hardcoded_values.py:64-72 | The index is 0 exactly when no line starts with `import ` or `from `. Otherwise it is one past the last import of the first block, where blank lines stay in the block and any other line ends it. |
| HardcodedValueFixer.AddConfigImportSpec | fix_hardcoded_values.py:56-76 | Exactly one line, the import, is added at the index, and removing it gives back the old lines. Afterwards the import is no longer needed. |
| HardcodedValueFixer.ListInsert | fix_hardcoded_values.py:75 | `list.insert`: the element sits at the index, the other elements keep their order, and removing it gives back the list. |
| HardcodedValueFixer.FirstUser | fix_hardcoded_values.py:117-124 | It finds the first definition line whose 50-line window mentions `config.`. |
| HardcodedValueFixer.ConfigCallSite | fix_hardcoded_values.py:117-138 | Any site found is a line of the text. |
| HardcodedValueFixer.ConfigCallSiteSpec | fix_hardcoded_values.py:117-138 | A site is the first eligible line less than ten lines after the first definition that uses `config.`. There is none when no definition uses `config.`, or when none of those lines is eligible; only that first definition is tried. |
| HardcodedValueFixer.InsertConfigCall | fix_hardcoded_values.py:126-137 | Without a site nothing changes. Otherwise one line is inserted before the site: the call, indented like the site line. |
| HardcodedValueFixer.WithConfigCallSpec | fix_hardcoded_values.py:111-140 | Text without the call gains exactly one line at the site, and removing it gives back the old lines. Otherwise the text is unchanged. |
| HardcodedValueFixer.ApplyRules | fix_hardcoded_values.py:94-104 | The config flag is set exactly when a change was reported, and it is set whenever the text changed. Every message reports a rule the guard let through. |
| HardcodedValueFixer.Step | fix_hardcoded_values.py:95-102 | One turn of the loop changes the text exactly when the rule fires: the engine finds the pattern, the guard lets the rule through and the substitution gives a different text. |
| HardcodedValueFixer.ApplyRulesSpec | fix_hardcoded_values.py:94-104 | The loop ends with the text of all the rules applied in order, and its messages are those of the rules that fired on the text they met, in rule order. |
| HardcodedValueFixer.ReportsSound | fix_hardcoded_values.py:94-104 | Every message reports a rule whose pattern was found and whose substitution changed the text it met. |
| HardcodedValueFixer.ReportsComplete | fix_hardcoded_values.py:94-104 | Every rule that fired on the text it met is reported. |
| HardcodedValueFixer.ReportsNoneUnchanged | fix_hardcoded_values.py:94-104 | A loop that reports nothing leaves the text as it was. |
| HardcodedValueFixer.ReportedRuleFired | fix_hardcoded_values.py:94-104 | A loop that reports something had some rule fire on the text it met. |
| HardcodedValueFixer.ConfigMessages | fix_hardcoded_values.py:106-136 | The import message comes first exactly when the import was added. The call message comes last exactly when the call was added. |
| HardcodedValueFixer.AddConfigLines | fix_hardcoded_values.py:106-140 | The import message is reported exactly when the text needed the import, and every message is one of the two config messages. |
| HardcodedValueFixer.AddConfigLinesSpec | fix_hardcoded_values.py:106-140 | The text gains exactly one line per message. When the text needed the import, the import line is a line of the result; when the call is reported, an indented call line is. |
| HardcodedValueFixer.FixFile | fix_hardcoded_values.py:78-148 | For either keypair guard (`AsWritten` is the code as it stands): an excluded or unreadable file gives `(False, [])` and nothing is written. The file is reported changed exactly when there is new text, which differs from the old. A changed file reports first a replacement the guard lets through; every message is such a replacement or one of the two config messages; an unchanged file reports nothing. For a readable file that is not excluded, the text is that of the loop followed by the config additions when the loop reported a change; the file is changed exactly when that text differs from the old, and then that text is written and the messages are the loop's followed by the additions'. |
| HardcodedValueFixer.FixFileNeedsAReplacement | fix_hardcoded_values.py:106-148 | A file is written only when some replacement rule fired on it: the config import and call are never added on their own. |
| HardcodedValueFixer.GuardsAgreeOffTestPaths | fix_hardcoded_values.py:94-104 | On a path whose lower-cased text does not contain `test`, the replacement loop gives the same result under both guards. |
| HardcodedValueFixer.FixFileGuardsAgree | fix_hardcoded_values.py:78-148 | On a path whose lower-cased text does not contain `test`, `fix_file` as written and with the corrected guard give the same result. |
| HardcodedValueFixer.KeypairRules | fix_hardcoded_values.py:36-37 | The two keypair rules quote `//Alice` in their patterns and both are replaced by the keypair seed setting. |
| HardcodedValueFixer.KeypairGuards | fix_hardcoded_values.py:96-98 | As written, the guard never skips a keypair rule. The corrected guard skips them exactly for paths containing `test`. |
| HardcodedValueFixer.SkippedRuleIsInert | fix_hardcoded_values.py:94-98 | A rule the guard skips has no effect: the loop gives the result it gives without that rule. |
| HardcodedValueFixer.CorrectedSparesTestKeypairs | fix_hardcoded_values.py:94-98 | On a test path, the corrected loop is the loop over the first ten rules. |
| HardcodedValueFixer.TestnetPathIsTestPath | fix_hardcoded_values.py:41-54 | `testnet.py` is not excluded, yet its lower-cased name contains `test`. |
| HardcodedValueFixer.KeypairGuardWitness | fix_hardcoded_values.py:97 | On `testnet.py`, the corrected guard skips the keypair rule while the guard as written does not. |
| PyValue.Lookup | test_hooks.py:99-105 | Dict lookup finds a value exactly when a key equals the needle, with `True == 1`. |
| PyValue.KeysListHasKey | test_hooks.py:111 | `list(d.keys())` holds a needle exactly when the dict has that key. |
| PyValue.In | test_hooks.py:146-155 | `in` on a string is substring search, on a list is membership, and on a dict is key presence. On anything else it raises. |
| PyValue.Index | test_hooks.py:149 | Indexing by a string key succeeds exactly on a dict that has that key. |
| PyValue.Iterate | test_hooks.py:149 | Iteration goes over a list's items, a dict's keys or a string's characters. Anything else raises. |
| WorkflowValidator.MissingKeys | test_hooks.py:49-58 | It gives one error per required key that is absent, and nothing else. |
| WorkflowValidator.MissingKeysDistinct | test_hooks.py:49-58 | Distinct keys give distinct missing-key errors. |
| WorkflowValidator.JobErrorsEmpty | test_hooks.py:61-73 | There are no job errors exactly when every job is a mapping with `runs-on` and `steps`. |
| WorkflowValidator.JobErrorsOfOneJob | test_hooks.py:62-73 | A non-mapping job gets exactly one error. A mapping job gets one error for each of `runs-on` and `steps` it lacks. |
| WorkflowValidator.ValidateWorkflowSyntax | test_hooks.py:26-82 | Valid holds exactly when the error list is empty. Blank text gives only `File is empty`. A read failure gives only an unexpected-error entry. |
| WorkflowValidator.CheckMapping | test_hooks.py:47-75 | Valid holds exactly when there are no errors, and the errors start with the missing-key errors. |
| WorkflowValidator.ValidIffWellFormed | test_hooks.py:36-75 | Non-blank text is valid exactly when it loads into a mapping that has `name`, `on` (or `True`) and `jobs`, with every job well formed. |
| WorkflowValidator.MappingValidIff | test_hooks.py:47-75 | A loaded mapping passes exactly when it is a well-formed workflow. |
| WorkflowValidator.MissingKeyErrors | test_hooks.py:49-58 | Each missing required key gives exactly one error, in key order, and no other missing-key error appears. |
| WorkflowValidator.TriggerKey | test_hooks.py:98-103 | A trigger key exists exactly when `True` (or `1`) or `"on"` is a key, and it is a key of the document. |
| WorkflowValidator.NormalizeMentions | test_hooks.py:105-111 | The normalised list holds an event exactly when the trigger value names it, as a string, as a list element or as a mapping key. |
| WorkflowValidator.CheckWorkflowTriggers | test_hooks.py:84-129 | There is at most one warning. A read failure gives one error warning. Blank text gives nothing. |
| WorkflowValidator.TriggerWarningRule | test_hooks.py:98-124 | The trigger warning is given exactly when the `on` value names neither `push` nor `pull_request`. |
| WorkflowValidator.RefChecks | test_hooks.py:150-172 | A reference gets at most one pinning warning, and every warning is about that reference. The checks raise exactly when the reference is not a string: `in` raises on scalars, and `.endswith` on lists and mappings. |
| WorkflowValidator.StringRefWarnings | test_hooks.py:154-172 | A string reference gets `not version pinned` exactly when it has no `@`, and `unstable branch` exactly when it has one and ends in `@main` or `@master`. It gets a local warning exactly for a missing `./` path. |
| WorkflowValidator.ScanWorkflow | test_hooks.py:145-175 | There are no more pinning warnings than references found, and each warning is about a reference found. `ScanWorkflowComplete` states that nothing is missed. |
| WorkflowValidator.ValidateActionReferences | test_hooks.py:131-177 | The same bound holds for the whole check. A read failure gives one error warning and blank text gives nothing. |
| WorkflowValidator.StringStepsScan | test_hooks.py:147-172 | Steps whose `uses` values are strings are scanned without an exception. |
| WorkflowValidator.ScanStepsComplete | test_hooks.py:149-172 | Nothing is missed: when every `uses` value is a string, the reference of every mapping step with `uses` is in the actions. It gets the not-pinned warning when it has no `@`, the unstable-branch warning when it ends in `@main` or `@master`, and the missing-local-action warning when it starts with `./` and the path does not exist. |
| WorkflowValidator.StepsJobScan | test_hooks.py:148-149 | A job that is a mapping with a list of such steps is scanned as that list: no exception, no error warning, and every step reference reported. |
| WorkflowValidator.ScanJobsComplete | test_hooks.py:147-172 | Over jobs of that shape the scan raises nothing, gives no error warning, and reports every step reference of every job. |
| WorkflowValidator.ScanWorkflowComplete | test_hooks.py:146-175 | When `jobs` is a mapping of such jobs, the workflow gets no error warning and every step reference of every job is reported. |
| WorkflowValidator.ValidateActionReferencesComplete | test_hooks.py:131-177 | The same holds for a non-blank workflow file that loads to a mapping whose `jobs` is such a mapping. |
| WorkflowValidator.TallyAppend | test_hooks.py:236-255 | The totals are sums over the workflows: the counts of two runs of reports add up. |
| WorkflowValidator.TallyCounts | test_hooks.py:236-255 | `valid_workflows` counts the workflows without syntax errors. There are no errors exactly when every workflow is valid. |
| WorkflowValidator.CheckFiles | test_hooks.py:227-255 | There is one report per file, made by the three checks on that file's text. |
| WorkflowValidator.RunWorkflowValidation | test_hooks.py:203-257 | A missing directory gives one error and no workflows. Otherwise every file is counted, and there are no errors exactly when all are valid. |
| WorkflowValidator.RunErrorFree | test_hooks.py:203-257 | With the directory present, the error total is 0 exactly when every file passes the structure check. |
| WorkflowValidator.AllValidCount | test_hooks.py:250-251 | The valid count equals the total exactly when every report is valid. |
| LintSummary.Truncate | test_hooks.py:379-381 | Output of at most 1000 characters is kept whole. Longer output becomes its first 1000 characters followed by `...`. |
| LintSummary.TruncateIdempotent | test_hooks.py:379-381 | Truncating an already truncated output changes nothing. |
| LintSummary.RunTools | test_hooks.py:326-402 | There is one check per tool, and no warnings are counted. |
| LintSummary.RunToolsCounts | test_hooks.py:326-402 | Check `i` is tool `i`'s. `passed` counts the passed checks and `errors` the failed, timed-out and crashed ones. |
| LintSummary.StatusesPartition | test_hooks.py:326-402 | Every check has exactly one of the five statuses. |
| LintSummary.FailedKeepsOutput | test_hooks.py:371-383 | A non-zero exit fails the check and keeps the truncated stdout plus stderr. |
| LintSummary.RunPythonLinting | test_hooks.py:293-404 | With no Python file there is one skipped check and no counts. Otherwise five tools are counted, and passed plus errors is at most five. |
| LintSummary.RunRustLinting | test_hooks.py:406-511 | Without `Cargo.toml` or `cargo` there is one skipped check. Otherwise four checks are counted, and each passes or is an error. |
| LintSummary.NoSkipWithoutProbe | test_hooks.py:453-509 | The Rust checks never skip. |
| LintSummary.Comprehensive | test_hooks.py:513-537 | The total error count is the sum of the workflow, Python and Rust error counts, and the status is `passed` exactly when all three are 0. The warnings are the workflow warnings. |
| LintSummary.ComprehensivePasses | test_hooks.py:513-537 | With the workflows present, the overall run passes exactly when every workflow passes the structure check and no tool failed, timed out or crashed. |
| MetadataValidation.ValidateMetadata | mod_net_client/utils/validation.py:5-15 | The metadata is valid exactly when `name`, `version` and `description` are all keys. |
| MetadataValidation.AllPresentIn | mod_net_client/utils/validation.py:15 | The field-by-field check agrees with "every required field is a key". |
| MetadataValidation.MissingFieldInvalid | mod_net_client/utils/validation.py:14-15 | Missing any one required field gives false. |
| MetadataValidation.OnlyKeysMatter | mod_net_client/utils/validation.py:15 | Values are never inspected: metadata with the same keys gets the same answer. |
| MetadataValidation.ExtraFieldsKeepValid | mod_net_client/utils/validation.py:15 | Adding keys to valid metadata keeps it valid. |

## Left out

- Printing, colours, the `argparse` front ends, `main`, the `set` and `current` commands and git tagging in `version_manager.py` are not modelled. They are console and process I/O.
- The `pyproject.toml` version substitution in `set_version` is not modelled. It is a regular-expression rewrite of another file, and it does not affect the returned version.
- File reads and writes are not modelled. A read becomes an input (`FileState` for the VERSION file and the changelog, `FileRead` for the fixer), and a write becomes part of the result.
- OS errors other than "missing" and "unreadable" are not modelled.
- `datetime.now()` is not modelled: the date string is an input to the changelog rewrite.
- The `len(parts) == 2` else branch of `update_changelog` is not modelled. It cannot be reached once the header is known to be in the text.
- VersionManager.GetCurrentVersionSpec: Python's `int()` refuses a digit string longer than 4300 characters (the default integer string conversion limit), and `get_current_version` catches the error and falls back to `(0,1,0)`. The model reads such a group as its number. Likewise `set_version` raises when formatting a number of more than 4300 digits, which the model writes out. Versions that large are outside the model.
- VersionManager.MatchTriple: `\d` is read as the ASCII digits 0-9, while Python also accepts other Unicode decimal digits.
- YAML parsing is not modelled. `yaml.safe_load` is the parameter `load`, which gives a syntax error or a parsed value.
- PyValue.Value: a loaded value is null, a boolean, an integer, a string, a list or a mapping. Floats, dates and binary scalars have no case, so a document holding one (such as `python-version: 3.11`) is outside the model.
- The texts of exception messages are not modelled. They appear as error and warning constructors.
- `check_secrets_usage` is not modelled. It is a regular-expression scan, and each file's number of secret warnings is a parameter.
- `check_repository_settings` is not modelled. It probes the file system and does not enter the summary counts.
- Local action existence is not modelled: `Path.exists` is a parameter.
- `subprocess.run` and `shutil.which` are not modelled. Each tool's outcome (not installed, exit code with output, timeout, other exception) is a parameter. The commands, their flags and the 60/120-second limits are not modelled.
- The regular-expression engine behind the replacement table is not modelled: `re.search` and `re.sub` are parameters. The table's twelve patterns are kept as data. The exclusion patterns are decided by string predicates proved equal to their regular-expression meaning.
- `fix_all_files` and the fixer's `main` are not modelled. They walk directories and print a report.
- The FRAME pallet machinery in `pallets/mcp/src/lib.rs` is not modelled. This covers the `Config` trait, the placeholder storage, events, errors and calls, and the derived SCALE codecs. It has no logic of its own. The `created_at`/`updated_at` fields are plain inputs.
- `fix_events.py`, `node/src/chain_spec.rs`, the two `build.rs` files and `mod_net_client/core/client.py` are not part of this model.
- HardcodedValueFixer.KeypairGuards: only the two keypair rules are examined. The other ten rules do not contain `//Alice` in either pattern or replacement, so both guards leave them alone.
- LintSummary.RunPythonLinting: this states `passed + errors <= total` rather than an exact split, because skipped tools count towards `total` only.

## Findings

| source | as written | input that shows it | evidently intended | confidence | as-written member | corrected member |
|---|---|---|---|---|---|---|
| fix_hardcoded_values.py:97 | The test-file guard on the keypair rules checks `'//Alice' in replacement`. The replacement text is `config.substrate.keypair_seed`, so the guard never fires. | Path `testnet.py` (not excluded) whose text contains `"//Alice"`: the literal is replaced although the path contains `test`. | Skip the keypair rules, whose patterns quote `//Alice`, for paths containing `test`, as the comment on the table says. | not executed | HardcodedValueFixer.KeypairGuardWitness | HardcodedValueFixer.CorrectedSparesTestKeypairs |
| version_manager.py:232 | `insert_line > 0` mixes up "the first heading is line 0" with "no heading found". | Changelog text `## [1.0.0]` with no Unreleased header: the new release is appended after `1.0.0` instead of placed before it. | Insert the stripped entry before the first heading wherever it is, and append only when there is none. | not executed | Changelog.HeadingAtLineZeroWitness | Changelog.HeadingInsertion |

=== FILE: changelog.dfy ===
/** The changelog rewrite done when a version is bumped with a message
    (`VersionManager.update_changelog` in version_manager.py). The date and
    the file's current contents are inputs; the function returns the text that
    is written back. */
module Changelog {

  import opened Wrappers
  import opened Text

  /** The header under which unreleased changes are collected. */
  const Unreleased: string := "## [Unreleased]"

  /** What starts the next section after the Unreleased header. */
  const NextSection: string := "\n## ["

  /** The text a new changelog starts with, up to the Unreleased header. */
  const Preamble: string :=
    "# Changelog\n\n"
    + "All notable changes to this project will be documented in this file.\n\n"
    + "The format is based on [Keep a Changelog](https://keepachangelog.com/en/1.0.0/),\n"
    + "and this project adheres to [Semantic Versioning](https://semver.org/spec/v2.0.0.html).\n\n"

  /** The block added for one release: a blank line, the version heading with
      its date, and a "Changed" list holding the one entry. */
  function NewEntry(version: string, date: string, entry: string): string {
    "\n## [" + version + "] - " + date + "\n\n### Changed\n- " + entry + "\n"
  }

  /** A line that starts with `##` and contains `[`: an existing version heading. */
  predicate IsHeading(line: string) {
    StartsWith(line, "##") && '[' in line
  }

  /** The first heading line at or after `from`. */
  function FirstHeading(lines: seq<string>, from: nat): (r: Option<nat>)
    ensures r.Some? ==> from <= r.value < |lines| && IsHeading(lines[r.value])
    ensures r.Some? ==> forall j :: from <= j < r.value ==> !IsHeading(lines[j])
    ensures r.None? ==> forall j :: from <= j < |lines| ==> !IsHeading(lines[j])
    decreases |lines| - from
  {
    if from >= |lines| then None
    else if IsHeading(lines[from]) then Some(from)
    else FirstHeading(lines, from + 1)
  }

  /** Insertion under the Unreleased header: before the first `"\n## ["` that
      follows it, or at the end when there is none. Shared by both readings of
      the no-header case below. */
  function InsertUnderUnreleased(content: string, e: string, i: nat): string
    requires IsAt(content, Unreleased, i)
  {
    var before := content[..i];
    var after := content[i + |Unreleased|..];
    match FindFrom(after, NextSection, 0)
    case Some(p) => before + Unreleased + after[..p] + e + after[p..]
    case None => before + Unreleased + after + e
  }

  /** The rewrite of an existing changelog as the code is written: without an
      Unreleased header, the stripped entry becomes a line before the first
      heading line only when that line is not line 0; otherwise the entry is
      appended. */
  function UpdateExistingAsWritten(content: string, e: string): string {
    match FindFrom(content, Unreleased, 0)
    case Some(i) => InsertUnderUnreleased(content, e, i)
    case None =>
      var lines := Split(content, '\n');
      match FirstHeading(lines, 0)
      case Some(k) =>
        if k > 0 then Join(lines[..k] + [Strip(e)] + lines[k..], '\n') else content + e
      case None => content + e
  }

  /** The rewrite of an existing changelog with the line-0 case corrected: the
      stripped entry goes before the first heading line wherever it is. */
  function UpdateExisting(content: string, e: string): string {
    match FindFrom(content, Unreleased, 0)
    case Some(i) => InsertUnderUnreleased(content, e, i)
    case None =>
      var lines := Split(content, '\n');
      match FirstHeading(lines, 0)
      case Some(k) => Join(lines[..k] + [Strip(e)] + lines[k..], '\n')
      case None => content + e
  }

  /** The text written to the changelog; `existing` is `None` when there is no
      changelog file yet. An existing changelog is rewritten as the code is
      written, line-0 case included. */
  function UpdateChangelog(existing: Option<string>, version: string, date: string, entry: string): (r: string)
    ensures existing.None? ==> StartsWith(r, Preamble + Unreleased)
    ensures existing.None? ==> EndsWith(r, NewEntry(version, date, entry) + "\n")
    ensures existing.None? ==> r == Preamble + Unreleased + "\n" + NewEntry(version, date, entry) + "\n"
    ensures existing.Some? ==> r == UpdateExistingAsWritten(existing.value, NewEntry(version, date, entry))
  {
    var e := NewEntry(version, date, entry);
    match existing
    case None => Preamble + Unreleased + "\n" + e + "\n"
    case Some(c) => UpdateExistingAsWritten(c, e)
  }

  /** The offset in the joined text at which line `k` starts. */
  function LineOffset(lines: seq<string>, k: nat): nat
    requires k <= |lines|
  {
    if k == 0 then 0 else LineOffset(lines, k - 1) + |lines[k - 1]| + 1
  }

  /** Cutting the joined text at a line start gives the joins of the two runs. */
  lemma {:induction false} LineOffsetSplits(lines: seq<string>, k: nat)
    requires 0 < k < |lines|
    ensures var c := Join(lines, '\n');
      && LineOffset(lines, k) <= |c|
      && c[..LineOffset(lines, k)] == Join(lines[..k], '\n') + "\n"
      && c[LineOffset(lines, k)..] == Join(lines[k..], '\n')
    decreases k
  {
    JoinAppend(lines[..k], lines[k..], '\n');
    assert lines[..k] + lines[k..] == lines;
    LineOffsetLength(lines, k);
  }

  /** The length of the joined first `k` lines, separator included. */
  lemma {:induction false} LineOffsetLength(lines: seq<string>, k: nat)
    requires 0 < k <= |lines|
    ensures LineOffset(lines, k) == |Join(lines[..k], '\n')| + 1
    decreases k
  {
    if k > 1 {
      LineOffsetLength(lines, k - 1);
      JoinAppend(lines[..k - 1], [lines[k - 1]], '\n');
      assert lines[..k - 1] + [lines[k - 1]] == lines[..k];
    }
  }

  /** Joining with one more line inserted at `k` inserts that line and a
      newline at the offset where line `k` started. */
  lemma {:induction false} JoinInsert(lines: seq<string>, k: nat, x: string)
    requires k < |lines|
    ensures var c := Join(lines, '\n');
      var q := LineOffset(lines, k);
      && q <= |c|
      && Join(lines[..k] + [x] + lines[k..], '\n') == c[..q] + (x + "\n") + c[q..]
      && StartsWith(c[q..], lines[k])
  {
    var c := Join(lines, '\n');
    var q := LineOffset(lines, k);
    var tail := lines[k..];
    assert Join([x] + tail, '\n') == x + "\n" + Join(tail, '\n') by {
      assert ([x] + tail)[1..] == tail;
    }
    JoinAround(tail, 0, '\n');
    assert tail[0] == lines[k];
    if k == 0 {
      assert lines[..k] + [x] + lines[k..] == [x] + tail;
      assert tail == lines;
    } else {
      LineOffsetSplits(lines, k);
      JoinAppend(lines[..k], [x] + tail, '\n');
      assert lines[..k] + [x] + lines[k..] == lines[..k] + ([x] + tail);
    }
    assert c[q..] == Join(tail, '\n');
    assert c[..q] + x + "\n" + c[q..] == c[..q] + (x + "\n") + c[q..];
  }

  /** With an Unreleased header at `i` (its first occurrence) and a next section
      starting at `q` (the first one after the header), the entry is inserted
      exactly at `q`, and cutting it out gives back the old text. */
  lemma {:induction false} UnreleasedInsertsBeforeNextSection(content: string, e: string, i: nat, q: nat)
    requires IsAt(content, Unreleased, i)
    requires forall j :: 0 <= j < i ==> !IsAt(content, Unreleased, j)
    requires i + |Unreleased| <= q && IsAt(content, NextSection, q)
    requires forall j :: i + |Unreleased| <= j < q ==> !IsAt(content, NextSection, j)
    ensures UpdateExisting(content, e) == content[..q] + e + content[q..]
    ensures UpdateExisting(content, e) == UpdateExistingAsWritten(content, e)
    ensures var r := UpdateExisting(content, e); r[..q] + r[q + |e|..] == content
  {
    HeaderFound(content, e, i);
    InsertsAtNextSection(content, e, i, q);
    var r := content[..q] + e + content[q..];
    assert r[..q] == content[..q] && r[q + |e|..] == content[q..];
  }

  /** With the first Unreleased header at `i`, both readings insert under it. */
  lemma {:induction false} HeaderFound(content: string, e: string, i: nat)
    requires IsAt(content, Unreleased, i)
    requires forall j :: 0 <= j < i ==> !IsAt(content, Unreleased, j)
    ensures UpdateExisting(content, e) == InsertUnderUnreleased(content, e, i)
    ensures UpdateExistingAsWritten(content, e) == InsertUnderUnreleased(content, e, i)
  {
    assert FindFrom(content, Unreleased, 0) == Some(i);
  }

  /** The insertion under the header at `i` lands at the first next section `q`. */
  lemma {:induction false} InsertsAtNextSection(content: string, e: string, i: nat, q: nat)
    requires IsAt(content, Unreleased, i)
    requires i + |Unreleased| <= q && IsAt(content, NextSection, q)
    requires forall j :: i + |Unreleased| <= j < q ==> !IsAt(content, NextSection, j)
    ensures InsertUnderUnreleased(content, e, i) == content[..q] + e + content[q..]
  {
    var cut := i + |Unreleased|;
    var after := content[cut..];
    var p := q - cut;
    IsAtShift(content, NextSection, cut, p);
    forall j: nat | j < p
      ensures !IsAt(after, NextSection, j)
    {
      IsAtShift(content, NextSection, cut, j);
    }
    assert FindFrom(after, NextSection, 0) == Some(p);
    assert content[..i] + Unreleased + after[..p] == content[..q] by {
      assert content[i..cut] == Unreleased;
    }
    assert after[p..] == content[q..];
  }

  /** With an Unreleased header and no `"\n## ["` after it, the entry is
      appended to the end. */
  lemma {:induction false} UnreleasedAppendsWithoutNextSection(content: string, e: string, i: nat)
    requires IsAt(content, Unreleased, i)
    requires forall j :: 0 <= j < i ==> !IsAt(content, Unreleased, j)
    requires forall j :: i + |Unreleased| <= j ==> !IsAt(content, NextSection, j)
    ensures UpdateExisting(content, e) == content + e
    ensures UpdateExisting(content, e) == UpdateExistingAsWritten(content, e)
  {
    var cut := i + |Unreleased|;
    var after := content[cut..];
    forall j: nat
      ensures !IsAt(after, NextSection, j)
    {
      IsAtShift(content, NextSection, cut, j);
    }
    HeaderFound(content, e, i);
    assert FindFrom(after, NextSection, 0) == None;
    assert content[..i] + Unreleased + after == content by {
      assert content[i..cut] == Unreleased;
    }
  }

  /** Without an Unreleased header, the stripped entry and a newline are
      inserted at the start of the first heading line `k`, wherever it is, and
      cutting them out gives back the old text. */
  lemma {:induction false} HeadingInsertion(content: string, e: string, k: nat)
    requires !Contains(content, Unreleased)
    requires var lines := Split(content, '\n');
      && k < |lines| && IsHeading(lines[k])
      && forall j :: 0 <= j < k ==> !IsHeading(lines[j])
    ensures var lines := Split(content, '\n');
      var q := LineOffset(lines, k);
      var x := Strip(e) + "\n";
      && q <= |content|
      && UpdateExisting(content, e) == content[..q] + x + content[q..]
      && StartsWith(content[q..], lines[k])
      && (q == 0 || content[q - 1] == '\n')
  {
    var lines := Split(content, '\n');
    var x := Strip(e);
    assert Join(lines, '\n') == content;
    assert FindFrom(content, Unreleased, 0) == None;
    assert FirstHeading(lines, 0) == Some(k);
    assert UpdateExisting(content, e) == Join(lines[..k] + [x] + lines[k..], '\n');
    JoinInsert(lines, k, x);
    var q := LineOffset(lines, k);
    if k > 0 {
      LineOffsetSplits(lines, k);
      assert content[..q][q - 1] == '\n';
    }
  }

  /** When the first heading is not line 0, the code as written agrees with the
      corrected rewrite: the stripped entry and a newline go in at the start
      of that heading line. */
  lemma {:induction false} HeadingInsertionAsWritten(content: string, e: string, k: nat)
    requires !Contains(content, Unreleased)
    requires var lines := Split(content, '\n');
      && 0 < k < |lines| && IsHeading(lines[k])
      && forall j :: 0 <= j < k ==> !IsHeading(lines[j])
    ensures UpdateExistingAsWritten(content, e) == UpdateExisting(content, e)
    ensures var lines := Split(content, '\n');
      var q := LineOffset(lines, k);
      && 0 < q <= |content|
      && UpdateExistingAsWritten(content, e) == content[..q] + Strip(e) + "\n" + content[q..]
      && content[q - 1] == '\n'
  {
    var lines := Split(content, '\n');
    assert FindFrom(content, Unreleased, 0) == None;
    assert FirstHeading(lines, 0) == Some(k);
    HeadingInsertion(content, e, k);
    LineOffsetLength(lines, k);
  }

  /** The code as written appends instead when the first heading is line 0, so
      the new release lands after the older ones. */
  lemma {:induction false} HeadingAtLineZeroAppends(content: string, e: string)
    requires !Contains(content, Unreleased)
    requires IsHeading(Split(content, '\n')[0])
    ensures UpdateExistingAsWritten(content, e) == content + e
  {
    assert FindFrom(content, Unreleased, 0) == None;
    assert FirstHeading(Split(content, '\n'), 0) == Some(0);
  }

  /** A one-line changelog that is a version heading: the code as written
      puts any new entry after it, the corrected rewrite puts it first. */
  lemma {:induction false} SingleHeadingLine(c: string, e: string)
    requires '\n' !in c && IsHeading(c) && !Contains(c, Unreleased)
    ensures UpdateExistingAsWritten(c, e) == c + e
    ensures UpdateExisting(c, e) == Strip(e) + "\n" + c
  {
    assert IndexOf(c, '\n') == |c|;
    assert Split(c, '\n') == [c];
    HeadingAtLineZeroAppends(c, e);
    HeadingInsertion(c, e, 0);
  }

  lemma {:induction false} VersionHeadingLine()
    ensures '\n' !in "## [1.0.0]" && IsHeading("## [1.0.0]") && !Contains("## [1.0.0]", Unreleased)
  {
    var c := "## [1.0.0]";
    assert c[..2] == "##" && c[3] == '[';
    assert |c| < |Unreleased|;
  }

  /** The concrete changelog `## [1.0.0]`: as written the entry lands after
      the old release; corrected, before it. */
  lemma {:induction false} HeadingAtLineZeroWitness(e: string)
    ensures UpdateExistingAsWritten("## [1.0.0]", e) == "## [1.0.0]" + e
    ensures UpdateExisting("## [1.0.0]", e) == Strip(e) + "\n" + "## [1.0.0]"
  {
    VersionHeadingLine();
    SingleHeadingLine("## [1.0.0]", e);
  }

  /** When no line is a heading and there is no Unreleased header, the entry is
      appended. */
  lemma {:induction false} NoHeadingAppends(content: string, e: string)
    requires !Contains(content, Unreleased)
    requires forall j :: 0 <= j < |Split(content, '\n')| ==> !IsHeading(Split(content, '\n')[j])
    ensures UpdateExisting(content, e) == content + e
    ensures UpdateExistingAsWritten(content, e) == content + e
  {
    assert FindFrom(content, Unreleased, 0) == None;
    assert FirstHeading(Split(content, '\n'), 0) == None;
  }
}

=== FILE: fix_hardcoded.dfy ===
/** The source-rewrite helper of fix_hardcoded_values.py: which files it
    leaves alone, how it adds the config import and the `config =
    get_config()` call, and what `fix_file` reports. File contents are
    passed in as values; the regular-expression search and substitution of
    the replacement table are parameters. */
module HardcodedValueFixer {

  import opened Wrappers
  import opened Text
  import opened PyValue

  // ----------------------------------------------------- file exclusion

  /** Python's `$`: the end of the text, or just before a final newline. */
  predicate DollarAt(s: string, k: int) {
    k == |s| || (|s| > 0 && k == |s| - 1 && s[|s| - 1] == '\n')
  }

  /** No newline in `s[i..j]`; `.` in a regular expression matches any other
      character. */
  predicate NoNewlineIn(s: string, i: int, j: int)
    requires 0 <= i <= j <= |s|
  {
    forall m :: i <= m < j ==> s[m] != '\n'
  }

  /** `re.search(x + ".*" + y + "$", s)` for literal text `x` and `y`. */
  ghost predicate SearchDotStar(s: string, x: string, y: string) {
    exists i, j :: 0 <= i && i + |x| <= j && j + |y| <= |s| && IsAt(s, x, i)
      && NoNewlineIn(s, i + |x|, j) && IsAt(s, y, j) && DollarAt(s, j + |y|)
  }

  /** `re.search(y + "$", s)` for literal text `y`. */
  ghost predicate SearchAtEnd(s: string, y: string) {
    exists j :: 0 <= j && j + |y| <= |s| && IsAt(s, y, j) && DollarAt(s, j + |y|)
  }

  /** The seven exclusion patterns, each searched for anywhere in the path:
      `test_.*\.py$`, `.*_test\.py$`, `tests/.*\.py$`, `audit_codebase\.py$`,
      `fix_hardcoded_values\.py$`, `config\.py$`, `substrate_config\.py$`. */
  ghost predicate MatchesExcludePattern(path: string) {
    || SearchDotStar(path, "test_", ".py")
    || SearchDotStar(path, "", "_test.py")
    || SearchDotStar(path, "tests/", ".py")
    || SearchAtEnd(path, "audit_codebase.py")
    || SearchAtEnd(path, "fix_hardcoded_values.py")
    || SearchAtEnd(path, "config.py")
    || SearchAtEnd(path, "substrate_config.py")
  }

  /** The text `$` looks at: `s` without one final newline. */
  function StripFinalNewline(s: string): (t: string)
    ensures t == s || (|s| > 0 && t == s[..|s| - 1] && s[|s| - 1] == '\n')
    ensures t == s[..|t|]
  {
    if |s| > 0 && s[|s| - 1] == '\n' then s[..|s| - 1] else s
  }

  /** Where the last line of `s` starts: just past its last newline. */
  function LastLineStart(s: string): (k: nat)
    ensures k <= |s|
    ensures forall m :: k <= m < |s| ==> s[m] != '\n'
    ensures k == 0 || s[k - 1] == '\n'
  {
    if |s| == 0 then 0
    else if s[|s| - 1] == '\n' then |s|
    else LastLineStart(s[..|s| - 1])
  }

  /** Search for `x.*y$` without backtracking: `y` must end the text `$` looks
      at, and `x` must occur in the last line before it. */
  function MatchDotStar(s: string, x: string, y: string): bool {
    var t := StripFinalNewline(s);
    EndsWith(t, y) && var u := t[..|t| - |y|]; FindFrom(u, x, LastLineStart(u)).Some?
  }

  /** Search for `y$`. */
  function MatchAtEnd(s: string, y: string): bool {
    EndsWith(StripFinalNewline(s), y)
  }

  /** A match of `y$` ends where the text `$` looks at ends, when `y` is a
      non-empty text without newlines. */
  lemma {:induction false} DollarEndsText(s: string, y: string, j: int)
    requires '\n' !in y && |y| > 0
    requires 0 <= j && j + |y| <= |s| && IsAt(s, y, j) && DollarAt(s, j + |y|)
    ensures j + |y| == |StripFinalNewline(s)|
  {
    assert s[j + |y| - 1] == y[|y| - 1];
    assert y[|y| - 1] in y;
  }

  /** The search for `y$` is a suffix test on the text `$` looks at. */
  lemma {:induction false} MatchAtEndSearch(s: string, y: string)
    requires '\n' !in y && |y| > 0
    ensures MatchAtEnd(s, y) <==> SearchAtEnd(s, y)
  {
    var t := StripFinalNewline(s);
    if MatchAtEnd(s, y) {
      var j := |t| - |y|;
      assert s[j..j + |y|] == t[j..];
      assert IsAt(s, y, j) && DollarAt(s, j + |y|);
    }
    forall j | 0 <= j && j + |y| <= |s| && IsAt(s, y, j) && DollarAt(s, j + |y|)
      ensures MatchAtEnd(s, y)
    {
      DollarEndsText(s, y, j);
      assert t[|t| - |y|..] == s[j..j + |y|];
    }
  }

  /** An occurrence in a prefix is an occurrence in the whole text. */
  lemma {:induction false} IsAtPrefix(s: string, j: nat, sub: string, i: int)
    requires j <= |s| && IsAt(s[..j], sub, i)
    ensures IsAt(s, sub, i)
  {
    assert s[..j][i..i + |sub|] == s[i..i + |sub|];
  }

  /** A match found without backtracking is a match of `x.*y$`. */
  lemma {:induction false} MatchDotStarSound(s: string, x: string, y: string)
    requires MatchDotStar(s, x, y)
    ensures SearchDotStar(s, x, y)
  {
    var t := StripFinalNewline(s);
    var j := |t| - |y|;
    var u := t[..j];
    assert u == s[..j];
    var i := FindFrom(u, x, LastLineStart(u)).value;
    IsAtPrefix(s, j, x, i);
    assert s[j..j + |y|] == t[j..];
    assert NoNewlineIn(s, i + |x|, j) by {
      assert forall m :: i + |x| <= m < j ==> s[m] == u[m];
    }
    assert IsAt(s, x, i) && IsAt(s, y, j) && DollarAt(s, j + |y|);
  }

  /** An occurrence of newline-free `x` followed by no newline up to the end
      lies in the last line, so the search from the last line's start finds
      an occurrence. */
  lemma {:induction false} InLastLine(u: string, x: string, i: nat)
    requires '\n' !in x && IsAt(u, x, i)
    requires forall m :: i + |x| <= m < |u| ==> u[m] != '\n'
    ensures LastLineStart(u) <= i
    ensures FindFrom(u, x, LastLineStart(u)).Some?
  {
    var L := LastLineStart(u);
    assert forall m :: i <= m < i + |x| ==> u[m] == x[m - i];
  }

  /** Every match of `x.*y$`, with `x` starting at `i` and `y` at `j`, is found
      without backtracking. */
  lemma {:induction false} MatchDotStarComplete(s: string, x: string, y: string, i: nat, j: nat)
    requires '\n' !in x && '\n' !in y && |y| > 0
    requires i + |x| <= j && j + |y| <= |s| && IsAt(s, x, i)
    requires NoNewlineIn(s, i + |x|, j) && IsAt(s, y, j) && DollarAt(s, j + |y|)
    ensures MatchDotStar(s, x, y)
  {
    var t := StripFinalNewline(s);
    DollarEndsText(s, y, j);
    assert EndsWith(t, y) by {
      assert t[|t| - |y|..] == s[j..j + |y|];
    }
    var u := s[..j];
    assert t[..j] == u;
    assert IsAt(u, x, i) by {
      assert u[i..i + |x|] == s[i..i + |x|];
    }
    assert forall m :: i + |x| <= m < |u| ==> u[m] != '\n' by {
      assert forall m :: i + |x| <= m < |u| ==> u[m] == s[m];
    }
    InLastLine(u, x, i);
  }

  /** The search for `x.*y$` without backtracking agrees with the regular
      expression, when `x` and `y` have no newlines and `y` is not empty. */
  lemma {:induction false} MatchDotStarSearch(s: string, x: string, y: string)
    requires '\n' !in x && '\n' !in y && |y| > 0
    ensures MatchDotStar(s, x, y) <==> SearchDotStar(s, x, y)
  {
    if MatchDotStar(s, x, y) {
      MatchDotStarSound(s, x, y);
    }
    forall i: nat, j: nat | i + |x| <= j && j + |y| <= |s| && IsAt(s, x, i)
                  && NoNewlineIn(s, i + |x|, j) && IsAt(s, y, j) && DollarAt(s, j + |y|)
      ensures MatchDotStar(s, x, y)
    {
      MatchDotStarComplete(s, x, y, i, j);
    }
  }

  /** No text in the exclusion patterns holds a newline. */
  lemma {:induction false} PatternTextsAreOneLine()
    ensures '\n' !in "test_" && '\n' !in "tests/" && '\n' !in ".py" && '\n' !in "_test.py"
    ensures '\n' !in "audit_codebase.py" && '\n' !in "fix_hardcoded_values.py"
    ensures '\n' !in "config.py" && '\n' !in "substrate_config.py"
  {
  }

  /** `should_exclude_file`: true exactly when one of the seven patterns is
      found in the path. */
  function ShouldExcludeFile(path: string): (r: bool)
    ensures r <==> MatchesExcludePattern(path)
  {
    PatternTextsAreOneLine();
    MatchDotStarSearch(path, "test_", ".py");
    MatchDotStarSearch(path, "", "_test.py");
    MatchDotStarSearch(path, "tests/", ".py");
    MatchAtEndSearch(path, "audit_codebase.py");
    MatchAtEndSearch(path, "fix_hardcoded_values.py");
    MatchAtEndSearch(path, "config.py");
    MatchAtEndSearch(path, "substrate_config.py");
    || MatchDotStar(path, "test_", ".py")
    || MatchDotStar(path, "", "_test.py")
    || MatchDotStar(path, "tests/", ".py")
    || MatchAtEnd(path, "audit_codebase.py")
    || MatchAtEnd(path, "fix_hardcoded_values.py")
    || MatchAtEnd(path, "config.py")
    || MatchAtEnd(path, "substrate_config.py")
  }

  /** Every path ending in `config.py` or `_test.py` is excluded. */
  lemma {:induction false} ConfigAndTestFilesExcluded(path: string)
    requires EndsWith(path, "config.py") || EndsWith(path, "_test.py")
    ensures ShouldExcludeFile(path)
  {
    assert path[|path| - 1] == 'y';
    assert StripFinalNewline(path) == path;
    if EndsWith(path, "_test.py") {
      var u := path[..|path| - 8];
      assert IsAt(u, "", |u|);
    }
  }

  /** Text ending in a name that ends in `.py` ends in `.py`. */
  lemma {:induction false} EndsInPy(t: string, y: string)
    requires EndsWith(t, y) && EndsWith(y, ".py")
    ensures EndsWith(t, ".py")
  {
    assert t[|t| - 3..] == t[|t| - |y|..][|y| - 3..];
  }

  /** Only Python files are excluded: an excluded path ends in `.py`, before
      at most one final newline. */
  lemma {:induction false} ExcludedArePython(path: string)
    requires ShouldExcludeFile(path)
    ensures EndsWith(StripFinalNewline(path), ".py")
  {
    var t := StripFinalNewline(path);
    if MatchDotStar(path, "", "_test.py") {
      EndsInPy(t, "_test.py");
    } else if MatchAtEnd(path, "audit_codebase.py") {
      EndsInPy(t, "audit_codebase.py");
    } else if MatchAtEnd(path, "fix_hardcoded_values.py") {
      EndsInPy(t, "fix_hardcoded_values.py");
    } else if MatchAtEnd(path, "config.py") {
      EndsInPy(t, "config.py");
    } else if MatchAtEnd(path, "substrate_config.py") {
      EndsInPy(t, "substrate_config.py");
    }
  }

  // -------------------------------------------------------- config import

  /** The import `add_config_import` inserts. */
  const ImportLine := "from config import get_config"

  /** `needs_config_import`. */
  predicate NeedsConfigImport(content: string) {
    !Contains(content, ImportLine) && !Contains(content, "import config")
  }

  predicate IsImport(line: string) {
    StartsWith(line, "import ") || StartsWith(line, "from ")
  }

  /** `line.strip() == ''` (see `Strip`: nothing is left exactly when every
      character is whitespace). */
  predicate IsBlank(line: string) {
    AllSpace(line)
  }

  /** What the import scan tells apart: import lines, blank lines and the rest.
      An import line is never blank, so the first test decides. */
  datatype LineKind = ImportKind | BlankKind | OtherKind

  function KindOf(line: string): LineKind {
    if IsImport(line) then ImportKind else if IsBlank(line) then BlankKind else OtherKind
  }

  function Kinds(lines: seq<string>): (r: seq<LineKind>)
    ensures |r| == |lines| && forall i :: 0 <= i < |lines| ==> r[i] == KindOf(lines[i])
  {
    seq(|lines|, i requires 0 <= i < |lines| => KindOf(lines[i]))
  }

  /** The scan of `add_config_import` from line `i`, where `idx` is one past
      the last import seen so far (0 before the first): an import moves `idx`
      past it, a blank line after an import is skipped, any other line after
      an import ends the scan, and lines before the first import are passed. */
  function ImportScan(kinds: seq<LineKind>, i: nat, idx: nat): (r: nat)
    requires idx <= i <= |kinds|
    ensures idx <= r <= |kinds|
    ensures r == idx || (i < r && kinds[r - 1] == ImportKind)
    decreases |kinds| - i
  {
    if i == |kinds| then idx
    else if kinds[i] == ImportKind then ImportScan(kinds, i + 1, i + 1)
    else if kinds[i] == BlankKind && idx > 0 then ImportScan(kinds, i + 1, idx)
    else if idx > 0 then idx
    else ImportScan(kinds, i + 1, idx)
  }

  /** Where `add_config_import` inserts. */
  function ImportIndex(lines: seq<string>): (r: nat)
    ensures r <= |lines|
    ensures r > 0 ==> IsImport(lines[r - 1])
  {
    ImportScan(Kinds(lines), 0, 0)
  }

  /** The first import line, or `|kinds|` when there is none. */
  function FirstImport(kinds: seq<LineKind>, from: nat): (f: nat)
    requires from <= |kinds|
    ensures from <= f <= |kinds|
    ensures forall k :: from <= k < f ==> kinds[k] != ImportKind
    ensures f < |kinds| ==> kinds[f] == ImportKind
    decreases |kinds| - from
  {
    if from == |kinds| || kinds[from] == ImportKind then from else FirstImport(kinds, from + 1)
  }

  /** Before any import the scan keeps going, so an import at or after `i`
      makes the result positive. */
  lemma {:induction false} ScanReachesImport(kinds: seq<LineKind>, i: nat, k: nat)
    requires i <= k < |kinds| && kinds[k] == ImportKind
    ensures ImportScan(kinds, i, 0) > 0
    decreases k - i
  {
    if kinds[i] != ImportKind {
      ScanReachesImport(kinds, i + 1, k);
    }
  }

  /** Every line from the first import up to the result is an import or blank. */
  lemma {:induction false} ScanBlock(kinds: seq<LineKind>, i: nat, idx: nat)
    requires idx <= i <= |kinds|
    requires idx == 0 ==> FirstImport(kinds, 0) >= i
    requires idx > 0 ==> FirstImport(kinds, 0) < idx
    requires idx > 0 ==> forall m :: FirstImport(kinds, 0) <= m < i ==> kinds[m] != OtherKind
    ensures forall m :: FirstImport(kinds, 0) <= m < ImportScan(kinds, i, idx) ==> kinds[m] != OtherKind
    decreases |kinds| - i
  {
    if i < |kinds| {
      if kinds[i] == ImportKind {
        ScanBlock(kinds, i + 1, i + 1);
      } else if kinds[i] == BlankKind && idx > 0 {
        ScanBlock(kinds, i + 1, idx);
      } else if idx == 0 {
        ScanBlock(kinds, i + 1, idx);
      }
    }
  }

  /** Some line from `r` up to `k` is neither an import nor blank. */
  predicate Interrupted(kinds: seq<LineKind>, r: nat, k: nat)
    requires k <= |kinds|
  {
    exists m :: r <= m < k && kinds[m] == OtherKind
  }

  /** After the result, the next line that is not blank is not an import:
      every later import has a line between that ends the block. */
  lemma {:induction false} ScanBlockEnds(kinds: seq<LineKind>, i: nat, idx: nat)
    requires idx <= i <= |kinds|
    requires forall k :: idx <= k < i ==> kinds[k] != ImportKind
    requires idx > 0 ==> forall k :: idx <= k < i ==> kinds[k] == BlankKind
    ensures var r := ImportScan(kinds, i, idx);
      forall k :: r <= k < |kinds| && kinds[k] == ImportKind ==> Interrupted(kinds, r, k)
    decreases |kinds| - i
  {
    if i < |kinds| {
      if kinds[i] == ImportKind {
        assert ImportScan(kinds, i, idx) == ImportScan(kinds, i + 1, i + 1);
        ScanBlockEnds(kinds, i + 1, i + 1);
      } else if kinds[i] == BlankKind && idx > 0 {
        assert ImportScan(kinds, i, idx) == ImportScan(kinds, i + 1, idx);
        ScanBlockEnds(kinds, i + 1, idx);
      } else if idx == 0 {
        assert ImportScan(kinds, i, idx) == ImportScan(kinds, i + 1, idx);
        ScanBlockEnds(kinds, i + 1, idx);
      } else {
        forall k | idx <= k < |kinds| && kinds[k] == ImportKind
          ensures Interrupted(kinds, idx, k)
        {
          assert i < k && kinds[i] == OtherKind;
        }
      }
    }
  }

  /** `ImportIndex` is 0 exactly when no line is an import; otherwise it is one
      past the last import of the first block of import lines, where blank
      lines inside the block are skipped and any other line ends it. */
  lemma {:induction false} ImportIndexSpec(lines: seq<string>)
    ensures ImportIndex(lines) == 0 <==> forall k :: 0 <= k < |lines| ==> !IsImport(lines[k])
    ensures ImportIndex(lines) > 0 ==> IsImport(lines[ImportIndex(lines) - 1])
    ensures forall m :: FirstImport(Kinds(lines), 0) <= m < ImportIndex(lines)
              ==> IsImport(lines[m]) || IsBlank(lines[m])
    ensures forall k :: ImportIndex(lines) <= k < |lines| && IsImport(lines[k]) ==>
              exists m :: ImportIndex(lines) <= m < k && !IsImport(lines[m]) && !IsBlank(lines[m])
  {
    var kinds := Kinds(lines);
    var r := ImportIndex(lines);
    if k :| 0 <= k < |lines| && IsImport(lines[k]) {
      assert kinds[k] == ImportKind;
      ScanReachesImport(kinds, 0, k);
    }
    ScanBlock(kinds, 0, 0);
    ScanBlockEnds(kinds, 0, 0);
    forall k | r <= k < |lines| && IsImport(lines[k])
      ensures exists m :: r <= m < k && !IsImport(lines[m]) && !IsBlank(lines[m])
    {
      assert kinds[k] == ImportKind;
      var m :| r <= m < k && kinds[m] == OtherKind;
      assert !IsImport(lines[m]) && !IsBlank(lines[m]);
    }
  }

  /** `add_config_import`. */
  function AddConfigImport(content: string): string {
    var lines := Split(content, '\n');
    var k := ImportIndex(lines);
    Join(ListInsert(lines, k, ImportLine), '\n')
  }

  /** The import becomes line `ImportIndex` of the text; removing that line
      gives back the old lines, and the text no longer needs the import. */
  lemma {:induction false} AddConfigImportSpec(content: string)
    ensures var before, after := Split(content, '\n'), Split(AddConfigImport(content), '\n');
      var k := ImportIndex(before);
      && |after| == |before| + 1
      && after[k] == ImportLine
      && after[..k] + after[k + 1..] == before
    ensures !NeedsConfigImport(AddConfigImport(content))
  {
    var lines := Split(content, '\n');
    var k := ImportIndex(lines);
    ImportLineIsOneLine();
    InsertLine(lines, k, ImportLine);
    var inserted := ListInsert(lines, k, ImportLine);
    SplitJoin(inserted, '\n');
    JoinContains(inserted, k, '\n');
  }

  /** `xs.insert(k, x)`: `x` becomes element `k`, and the elements from `k`
      on move up by one. */
  function ListInsert<T>(xs: seq<T>, k: nat, x: T): (r: seq<T>)
    requires k <= |xs|
    ensures |r| == |xs| + 1 && r[k] == x
    ensures forall i :: 0 <= i < k ==> r[i] == xs[i]
    ensures forall i :: k < i < |r| ==> r[i] == xs[i - 1]
    ensures r[..k] + r[k + 1..] == xs
  {
    var r := xs[..k] + [x] + xs[k..];
    assert r[..k] == xs[..k] && r[k + 1..] == xs[k..];
    r
  }

  /** Inserting a line without newlines keeps every line free of newlines. */
  lemma {:induction false} InsertLine(lines: seq<string>, k: nat, x: string)
    requires k <= |lines| && '\n' !in x
    requires forall i :: 0 <= i < |lines| ==> '\n' !in lines[i]
    ensures var inserted := ListInsert(lines, k, x);
      forall i :: 0 <= i < |inserted| ==> '\n' !in inserted[i]
  {
    var inserted := ListInsert(lines, k, x);
    forall i | 0 <= i < |inserted|
      ensures '\n' !in inserted[i]
    {
      if i < k {
        assert inserted[i] == lines[i];
      } else if i > k {
        assert inserted[i] == lines[i - 1];
      }
    }
  }

  lemma {:induction false} ImportLineIsOneLine()
    ensures '\n' !in ImportLine
  {
  }

  // ----------------------------------------------------- config call

  /** The line `fix_file` inserts so that the rewritten code has a `config`. */
  const ConfigCall := "config = get_config()"

  lemma {:induction false} ConfigCallIsOneLine()
    ensures '\n' !in ConfigCall
  {
  }

  /** A line that, once stripped, opens a function, a class or an async function. */
  predicate IsDefLine(line: string) {
    var t := Strip(line);
    StartsWith(t, "def ") || StartsWith(t, "class ") || StartsWith(t, "async def ")
  }

  function Min(a: int, b: int): int {
    if a <= b then a else b
  }

  /** Line `i` opens a definition whose next 50 lines (itself included) mention `config.`. */
  predicate UsesConfig(lines: seq<string>, i: nat)
    requires i < |lines|
  {
    IsDefLine(lines[i]) && Contains(Join(lines[i..Min(i + 50, |lines|)], '\n'), "config.")
  }

  /** A line that can take the config call before it: not blank, not the start
      of a docstring, and not already the call. */
  predicate Eligible(line: string) {
    var t := Strip(line);
    t != [] && !StartsWith(t, "\"\"\"") && !StartsWith(t, "'''") && !Contains(line, ConfigCall)
  }

  /** The first definition at or after `from` that uses `config.`. */
  function FirstUser(lines: seq<string>, from: nat): (r: Option<nat>)
    ensures r.Some? ==> from <= r.value < |lines| && UsesConfig(lines, r.value)
    ensures r.Some? ==> forall k :: from <= k < r.value ==> !UsesConfig(lines, k)
    ensures r.None? ==> forall k :: from <= k < |lines| ==> !UsesConfig(lines, k)
    decreases |lines| - from
  {
    if from >= |lines| then None
    else if UsesConfig(lines, from) then Some(from)
    else FirstUser(lines, from + 1)
  }

  /** Which lines are eligible. */
  function EligibleLines(lines: seq<string>): (r: seq<bool>)
    ensures |r| == |lines| && forall i :: 0 <= i < |lines| ==> r[i] == Eligible(lines[i])
  {
    seq(|lines|, i requires 0 <= i < |lines| => Eligible(lines[i]))
  }

  /** The first set flag in `flags[from..until]`: with the eligible lines as
      flags, the first eligible line in that range. */
  function FirstSet(flags: seq<bool>, from: nat, until: nat): (r: Option<nat>)
    requires until <= |flags|
    ensures r.Some? ==> from <= r.value < until && flags[r.value]
    ensures r.Some? ==> forall k :: from <= k < r.value ==> !flags[k]
    ensures r.None? ==> (forall k :: from <= k < until ==> !flags[k])
    decreases until - from as int
  {
    if from >= until then None
    else if flags[from] then Some(from)
    else FirstSet(flags, from + 1, until)
  }

  /** Where the config call goes: the first eligible line among the nine after
      the first definition that uses `config.`. Only that definition is tried. */
  function ConfigCallSite(lines: seq<string>): (r: Option<nat>)
    ensures r.Some? ==> r.value < |lines|
  {
    match FirstUser(lines, 0)
    case None => None
    case Some(i) => FirstSet(EligibleLines(lines), i + 1, Min(|lines|, i + 10))
  }

  /** The site is the first eligible line less than ten lines after the first
      definition that uses `config.`; there is no site when no definition uses
      it or when none of the nine lines after the first one is eligible. */
  lemma {:induction false} ConfigCallSiteSpec(lines: seq<string>)
    ensures ConfigCallSite(lines).Some? ==>
              exists i :: && 0 <= i < ConfigCallSite(lines).value < Min(i + 10, |lines|)
                          && UsesConfig(lines, i) && FirstUser(lines, 0) == Some(i)
                          && Eligible(lines[ConfigCallSite(lines).value])
                          && forall k :: i < k < ConfigCallSite(lines).value ==> !Eligible(lines[k])
    ensures FirstUser(lines, 0).None? ==> ConfigCallSite(lines).None?
    ensures ConfigCallSite(lines).None? && FirstUser(lines, 0).Some? ==>
              var i := FirstUser(lines, 0).value;
              forall k :: i < k < Min(i + 10, |lines|) ==> !Eligible(lines[k])
  {
  }

  /** `n` spaces. */
  function Spaces(n: nat): (r: string)
    ensures |r| == n && forall i :: 0 <= i < n ==> r[i] == ' '
  {
    seq(n, _ => ' ')
  }

  /** The line-level insertion of the config call: nothing changes when there
      is no site; otherwise one line, the call indented by as many spaces as
      the site line has leading whitespace, is inserted before the site line. */
  function InsertConfigCall(lines: seq<string>): (r: seq<string>)
    ensures ConfigCallSite(lines).None? ==> r == lines
    ensures ConfigCallSite(lines).Some? ==> var j := ConfigCallSite(lines).value;
      && |r| == |lines| + 1
      && r[..j] + r[j + 1..] == lines
      && r[j] == Spaces(LeadingSpace(lines[j])) + ConfigCall
      && r[j + 1] == lines[j]
  {
    match ConfigCallSite(lines)
    case None => lines
    case Some(j) => ListInsert(lines, j, Spaces(LeadingSpace(lines[j])) + ConfigCall)
  }

  // ------------------------------------------------------ replacements

  /** One entry of the replacement table: the regular expression as written
      and its replacement text. */
  datatype Rule = Rule(pattern: string, replacement: string)

  /** The replacement table, in dictionary order. */
  const Table: seq<Rule> := [
    Rule("\"http://localhost:5001\"", "config.ipfs.api_url"),
    Rule("\"http://localhost:8080\"", "config.ipfs.gateway_url"),
    Rule("\"http://localhost:8000\"", "config.commune_ipfs.base_url"),
    Rule("\"http://localhost:8004\"", "config.test.test_module_registry_url"),
    Rule("\"http://127\\.0\\.0\\.1:9933\"", "config.substrate.http_url"),
    Rule("\"ws://127\\.0\\.0\\.1:9944\"", "config.substrate.ws_url"),
    Rule("\"http://127\\.0\\.0\\.1:9944\"", "config.substrate.http_url"),
    Rule("os\\.getenv\\(['\\\"]PORT['\\\"], ['\\\"]8000['\\\"]\\)",
         "os.getenv('PORT', str(config.commune_ipfs.port))"),
    Rule("os\\.getenv\\(['\\\"]IPFS_API_PORT['\\\"], ['\\\"]5001['\\\"]\\)",
         "os.getenv('IPFS_API_PORT', str(config.ipfs.api_port))"),
    Rule("os\\.getenv\\(['\\\"]IPFS_GATEWAY_PORT['\\\"], ['\\\"]8080['\\\"]\\)",
         "os.getenv('IPFS_GATEWAY_PORT', str(config.ipfs.gateway_port))"),
    Rule("\"//Alice\"", "config.substrate.keypair_seed"),
    Rule("'//Alice'", "config.substrate.keypair_seed")
  ]

  /** The regular-expression engine: `re.search(pattern, text)` and
      `re.sub(pattern, replacement, text)`. */
  datatype Engine = Engine(search: (string, string) -> bool, sub: (string, string, string) -> string)

  /** The two readings of the test-file guard on the keypair rules. */
  datatype SkipGuard =
    | AsWritten   // looks for `//Alice` in the replacement text
    | Corrected   // looks for `//Alice` in the pattern

  /** A rule is skipped for a path when it is a keypair rule and the
      lower-cased path contains `test`. */
  predicate Skip(guard: SkipGuard, rule: Rule, path: string) {
    var keypair := match guard
      case AsWritten => Contains(rule.replacement, "//Alice")
      case Corrected => Contains(rule.pattern, "//Alice");
    keypair && Contains(AsciiLower(path), "test")
  }

  /** The change message for one applied rule. */
  function ReplacedMessage(rule: Rule): string {
    "Replaced " + rule.pattern + " with " + rule.replacement
  }

  /** The state after the replacement loop. */
  datatype Pass = Pass(content: string, changes: seq<string>, needsConfig: bool)

  /** `m` reports a rule of `rules` that the guard lets through for `path`. */
  predicate Applied(rules: seq<Rule>, guard: SkipGuard, path: string, m: string) {
    exists i :: 0 <= i < |rules| && !Skip(guard, rules[i], path) && m == ReplacedMessage(rules[i])
  }

  /** One turn of the replacement loop: the text after `rule`, which is the
      substitution when the engine finds the pattern and the guard lets the
      rule through, and the same text otherwise. */
  function Step(rule: Rule, path: string, text: string, engine: Engine, guard: SkipGuard): (r: string)
    ensures r != text <==> Fires(rule, path, text, engine, guard)
  {
    if engine.search(rule.pattern, text) && !Skip(guard, rule, path)
    then engine.sub(rule.pattern, rule.replacement, text) else text
  }

  /** `rule` changes `text`: the engine finds its pattern, the guard does not
      skip it, and the substitution gives a different text. */
  predicate Fires(rule: Rule, path: string, text: string, engine: Engine, guard: SkipGuard) {
    && engine.search(rule.pattern, text) && !Skip(guard, rule, path)
    && engine.sub(rule.pattern, rule.replacement, text) != text
  }

  /** The text the loop holds when it reaches rule `i`: the first `i` rules
      applied in order to `content`. */
  function TextBefore(rules: seq<Rule>, path: string, content: string, engine: Engine, guard: SkipGuard, i: nat): string
    requires i <= |rules|
    decreases i
  {
    if i == 0 then content
    else Step(rules[i - 1], path, TextBefore(rules, path, content, engine, guard, i - 1), engine, guard)
  }

  /** Rule `j` fires on the text the loop holds when it reaches it. */
  predicate FiresAt(rules: seq<Rule>, path: string, content: string, engine: Engine, guard: SkipGuard, j: nat)
    requires j < |rules|
  {
    Fires(rules[j], path, TextBefore(rules, path, content, engine, guard, j), engine, guard)
  }

  /** The messages of the first `i` rules: one per rule that fires on the text
      it meets, in rule order. */
  function Reports(rules: seq<Rule>, path: string, content: string, engine: Engine, guard: SkipGuard, i: nat): seq<string>
    requires i <= |rules|
    decreases i
  {
    if i == 0 then []
    else
      var ms := Reports(rules, path, content, engine, guard, i - 1);
      if FiresAt(rules, path, content, engine, guard, i - 1) then ms + [ReplacedMessage(rules[i - 1])] else ms
  }

  /** Every message reports a rule that fired on the text it met. */
  lemma {:induction false} ReportsSound(rules: seq<Rule>, path: string, content: string, engine: Engine, guard: SkipGuard, i: nat)
    requires i <= |rules|
    ensures forall m :: m in Reports(rules, path, content, engine, guard, i) ==>
              exists j :: 0 <= j < i && FiresAt(rules, path, content, engine, guard, j) && m == ReplacedMessage(rules[j])
    decreases i
  {
    if i > 0 {
      ReportsSound(rules, path, content, engine, guard, i - 1);
      var ms := Reports(rules, path, content, engine, guard, i - 1);
      var r := Reports(rules, path, content, engine, guard, i);
      forall m | m in r
        ensures exists j :: 0 <= j < i && FiresAt(rules, path, content, engine, guard, j) && m == ReplacedMessage(rules[j])
      {
        if m in ms {
          var j :| 0 <= j < i - 1 && FiresAt(rules, path, content, engine, guard, j) && m == ReplacedMessage(rules[j]);
        } else {
          assert FiresAt(rules, path, content, engine, guard, i - 1) && m == ReplacedMessage(rules[i - 1]);
        }
      }
    }
  }

  /** Every rule that fired on the text it met is reported. */
  lemma {:induction false} ReportsComplete(rules: seq<Rule>, path: string, content: string, engine: Engine, guard: SkipGuard, i: nat)
    requires i <= |rules|
    ensures forall j :: 0 <= j < i && FiresAt(rules, path, content, engine, guard, j)
              ==> ReplacedMessage(rules[j]) in Reports(rules, path, content, engine, guard, i)
    decreases i
  {
    if i > 0 {
      ReportsComplete(rules, path, content, engine, guard, i - 1);
      var ms := Reports(rules, path, content, engine, guard, i - 1);
      var r := Reports(rules, path, content, engine, guard, i);
      assert forall m :: m in ms ==> m in r;
    }
  }

  /** Without messages the text is the one the loop started with. */
  lemma {:induction false} ReportsNoneUnchanged(rules: seq<Rule>, path: string, content: string, engine: Engine, guard: SkipGuard, i: nat)
    requires i <= |rules|
    ensures Reports(rules, path, content, engine, guard, i) == [] ==> TextBefore(rules, path, content, engine, guard, i) == content
    decreases i
  {
    if i > 0 {
      ReportsNoneUnchanged(rules, path, content, engine, guard, i - 1);
      var ms := Reports(rules, path, content, engine, guard, i - 1);
      if !FiresAt(rules, path, content, engine, guard, i - 1) {
        assert TextBefore(rules, path, content, engine, guard, i)
            == TextBefore(rules, path, content, engine, guard, i - 1);
      }
    }
  }

  /** Running the rules from the second one on the text after the first is
      running them all, one turn later. */
  lemma {:induction false} TextTail(rules: seq<Rule>, path: string, content: string, engine: Engine, guard: SkipGuard, i: nat)
    requires i < |rules|
    ensures TextBefore(rules, path, content, engine, guard, i + 1)
         == TextBefore(rules[1..], path, Step(rules[0], path, content, engine, guard), engine, guard, i)
    decreases i
  {
    if i > 0 {
      TextTail(rules, path, content, engine, guard, i - 1);
      assert rules[1..][i - 1] == rules[i];
    }
  }

  /** The same for the messages: the first rule's message, if it fired, then
      the messages of the rest run on the text after it. */
  lemma {:induction false} ReportsTail(rules: seq<Rule>, path: string, content: string, engine: Engine, guard: SkipGuard, i: nat)
    requires i < |rules|
    ensures Reports(rules, path, content, engine, guard, i + 1)
         == (if Fires(rules[0], path, content, engine, guard) then [ReplacedMessage(rules[0])] else [])
            + Reports(rules[1..], path, Step(rules[0], path, content, engine, guard), engine, guard, i)
    decreases i
  {
    var next := Step(rules[0], path, content, engine, guard);
    if i > 0 {
      ReportsTail(rules, path, content, engine, guard, i - 1);
      TextTail(rules, path, content, engine, guard, i - 1);
      assert rules[1..][i - 1] == rules[i];
      assert FiresAt(rules, path, content, engine, guard, i)
         == FiresAt(rules[1..], path, next, engine, guard, i - 1);
      var head := if Fires(rules[0], path, content, engine, guard) then [ReplacedMessage(rules[0])] else [];
      var tail := Reports(rules[1..], path, next, engine, guard, i - 1);
      var last := if FiresAt(rules, path, content, engine, guard, i) then [ReplacedMessage(rules[i])] else [];
      assert Reports(rules, path, content, engine, guard, i + 1) == (head + tail) + last;
      assert Reports(rules[1..], path, next, engine, guard, i) == tail + last;
      assert (head + tail) + last == head + (tail + last);
    }
  }

  /** The replacement loop over `rules`: a rule is applied when the engine
      finds its pattern and the guard does not skip it, and reported when the
      substitution changed the text. */
  function ApplyRules(rules: seq<Rule>, path: string, content: string, engine: Engine, guard: SkipGuard): (p: Pass)
    ensures p.needsConfig <==> p.changes != []
    ensures p.content != content ==> p.needsConfig
    ensures forall k :: 0 <= k < |p.changes| ==> Applied(rules, guard, path, p.changes[k])
  {
    if rules == [] then Pass(content, [], false)
    else
      var rule := rules[0];
      var rest := rules[1..];
      if engine.search(rule.pattern, content) && !Skip(guard, rule, path) then
        var next := engine.sub(rule.pattern, rule.replacement, content);
        var p := ApplyRules(rest, path, next, engine, guard);
        AppliedTail(rules, guard, path, p.changes);
        if next != content then
          Pass(p.content, [ReplacedMessage(rule)] + p.changes, true)
        else p
      else
        var p := ApplyRules(rest, path, content, engine, guard);
        AppliedTail(rules, guard, path, p.changes);
        p
  }

  /** The loop ends with the text of all the rules applied in order, and
      reports exactly the rules that fired on the text they met, in order:
      a rule whose pattern was not found, that the guard skipped, or whose
      substitution left the text as it was is not reported. */
  lemma {:induction false} ApplyRulesSpec(rules: seq<Rule>, path: string, content: string, engine: Engine, guard: SkipGuard)
    ensures var p := ApplyRules(rules, path, content, engine, guard);
      && p.content == TextBefore(rules, path, content, engine, guard, |rules|)
      && p.changes == Reports(rules, path, content, engine, guard, |rules|)
    decreases |rules|
  {
    if rules != [] {
      var next := Step(rules[0], path, content, engine, guard);
      ApplyRulesSpec(rules[1..], path, next, engine, guard);
      TextTail(rules, path, content, engine, guard, |rules| - 1);
      ReportsTail(rules, path, content, engine, guard, |rules| - 1);
    }
  }

  /** A message about a rule of the tail is a message about a rule of the whole. */
  lemma {:induction false} AppliedTail(rules: seq<Rule>, guard: SkipGuard, path: string, ms: seq<string>)
    requires rules != []
    requires forall k :: 0 <= k < |ms| ==> Applied(rules[1..], guard, path, ms[k])
    ensures forall k :: 0 <= k < |ms| ==> Applied(rules, guard, path, ms[k])
  {
    forall k | 0 <= k < |ms|
      ensures Applied(rules, guard, path, ms[k])
    {
      assert Applied(rules[1..], guard, path, ms[k]);
      var i :| 0 <= i < |rules[1..]| && !Skip(guard, rules[1..][i], path) && ms[k] == ReplacedMessage(rules[1..][i]);
      assert rules[1..][i] == rules[i + 1];
    }
  }

  const ImportMessage := "Added config import"
  const CallMessage := "Added config = get_config() call"

  /** The `config = get_config()` step of `fix_file`: text that has no such
      call gets it inserted at the site, if there is one. */
  function WithConfigCall(content: string): string {
    if Contains(content, ConfigCall) then content
    else Join(InsertConfigCall(Split(content, '\n')), '\n')
  }

  /** The step adds exactly one line, before the site line, when the text has
      no call and there is a site; otherwise the text is unchanged. */
  lemma {:induction false} WithConfigCallSpec(content: string)
    ensures var before, after := Split(content, '\n'), Split(WithConfigCall(content), '\n');
      if !Contains(content, ConfigCall) && ConfigCallSite(before).Some? then
        var j := ConfigCallSite(before).value;
        && |after| == |before| + 1
        && after[..j] + after[j + 1..] == before
        && after[j] == Spaces(LeadingSpace(before[j])) + ConfigCall
      else WithConfigCall(content) == content
  {
    var lines := Split(content, '\n');
    if !Contains(content, ConfigCall) && ConfigCallSite(lines).Some? {
      var j := ConfigCallSite(lines).value;
      CallLineIsOneLine(LeadingSpace(lines[j]));
      InsertLine(lines, j, Spaces(LeadingSpace(lines[j])) + ConfigCall);
      SplitJoin(InsertConfigCall(lines), '\n');
    }
  }

  /** The indented call has no newline. */
  lemma {:induction false} CallLineIsOneLine(n: nat)
    ensures '\n' !in Spaces(n) + ConfigCall
  {
    var call := Spaces(n) + ConfigCall;
    ConfigCallIsOneLine();
    forall i | 0 <= i < |call|
      ensures call[i] != '\n'
    {
      if i >= n {
        assert call[i] == ConfigCall[i - n];
      }
    }
  }

  lemma {:induction false} MessagesDiffer()
    ensures ImportMessage != CallMessage
  {
    assert |ImportMessage| != |CallMessage|;
  }

  /** The messages for the two additions, in the order they are made. */
  function ConfigMessages(addedImport: bool, addedCall: bool): (m: seq<string>)
    ensures forall k :: 0 <= k < |m| ==> m[k] == ImportMessage || m[k] == CallMessage
    ensures |m| <= 2
    ensures addedImport <==> m != [] && m[0] == ImportMessage
    ensures addedCall <==> m != [] && m[|m| - 1] == CallMessage
  {
    MessagesDiffer();
    (if addedImport then [ImportMessage] else []) + (if addedCall then [CallMessage] else [])
  }

  /** The config lines `fix_file` adds once a replacement changed the text:
      the import when the text has none, then the `config = get_config()`
      call when the text has none and has a site for it. Returns the new text
      and the messages reporting the additions. */
  function AddConfigLines(content: string): (r: (string, seq<string>))
    ensures forall k :: 0 <= k < |r.1| ==> r.1[k] == ImportMessage || r.1[k] == CallMessage
    ensures NeedsConfigImport(content) <==> r.1 != [] && r.1[0] == ImportMessage
  {
    var addImport := NeedsConfigImport(content);
    var imported := if addImport then AddConfigImport(content) else content;
    var addCall := !Contains(imported, ConfigCall) && ConfigCallSite(Split(imported, '\n')).Some?;
    (WithConfigCall(imported), ConfigMessages(addImport, addCall))
  }

  /** Each message stands for one added line: the text gains exactly as many
      lines as there are messages. When the text needed the import, the
      import line is a line of the result; when the call is reported, an
      indented call line is. */
  lemma {:induction false} AddConfigLinesSpec(content: string)
    ensures var (text, ms) := AddConfigLines(content);
      && |Split(text, '\n')| == |Split(content, '\n')| + |ms|
      && (NeedsConfigImport(content) ==> ImportLine in Split(text, '\n'))
      && (CallMessage in ms ==> exists n :: Spaces(n) + ConfigCall in Split(text, '\n'))
  {
    var addImport := NeedsConfigImport(content);
    var imported := if addImport then AddConfigImport(content) else content;
    var mid := Split(imported, '\n');
    if addImport {
      AddConfigImportSpec(content);
      assert mid[ImportIndex(Split(content, '\n'))] == ImportLine;
    }
    WithConfigCallSpec(imported);
    MessagesDiffer();
    if !Contains(imported, ConfigCall) && ConfigCallSite(mid).Some? {
      var j := ConfigCallSite(mid).value;
      var after := Split(WithConfigCall(imported), '\n');
      assert after[j] == Spaces(LeadingSpace(mid[j])) + ConfigCall;
      if addImport {
        StillALine(after, mid, j, ImportLine);
      }
    }
  }

  /** An element of what is left after removing element `j` is an element of
      the whole. */
  lemma {:induction false} StillALine<T>(after: seq<T>, before: seq<T>, j: nat, x: T)
    requires j < |after| && after[..j] + after[j + 1..] == before && x in before
    ensures x in after
  {
  }

  /** A message `fix_file` may report for `path` under the keypair guard `guard`. */
  predicate Reportable(guard: SkipGuard, path: string, m: string) {
    m == ImportMessage || m == CallMessage || Applied(Table, guard, path, m)
  }

  /** What `fix_file` returns, with the text it writes back (if any). */
  datatype FixResult = FixResult(changed: bool, changes: seq<string>, written: Option<string>)

  /** `fix_file`, where `Unreadable` stands for the two read errors it
      catches (undecodable text, no permission). An excluded or unreadable
      file is left alone. A file is reported changed exactly when the text
      to write differs from what was read, and then the first message is a
      replacement; an unchanged file reports no messages. `guard` is the
      keypair guard: `fix_file` as it stands is `FixFile(path, read, engine,
      AsWritten)`, and `Corrected` gives the guard its comment describes. */
  function FixFile(path: string, read: FileRead, engine: Engine, guard: SkipGuard): (r: FixResult)
    ensures ShouldExcludeFile(path) || read.Unreadable? ==> r == FixResult(false, [], None)
    ensures r.changed <==> r.written.Some?
    ensures r.changed ==> read.Read? && r.written.value != read.text
    ensures !r.changed ==> r.changes == []
    ensures r.changed ==> r.changes != [] && Applied(Table, guard, path, r.changes[0])
    ensures forall k :: 0 <= k < |r.changes| ==> Reportable(guard, path, r.changes[k])
    ensures read.Read? && !ShouldExcludeFile(path) ==>
              var pass := ApplyRules(Table, path, read.text, engine, guard);
              var (text, extra) := if pass.needsConfig then AddConfigLines(pass.content) else (pass.content, []);
              && (r.changed <==> text != read.text)
              && (r.changed ==> r.written == Some(text) && r.changes == pass.changes + extra)
  {
    if ShouldExcludeFile(path) || read.Unreadable? then FixResult(false, [], None)
    else
      var pass := ApplyRules(Table, path, read.text, engine, guard);
      var (content, extra) := if pass.needsConfig then AddConfigLines(pass.content) else (pass.content, []);
      if content != read.text then FixResult(true, pass.changes + extra, Some(content))
      else FixResult(false, [], None)
  }

  /** A loop that reports something had some rule fire on the text it met. */
  lemma {:induction false} ReportedRuleFired(rules: seq<Rule>, path: string, content: string, engine: Engine, guard: SkipGuard)
    requires ApplyRules(rules, path, content, engine, guard).changes != []
    ensures exists j :: 0 <= j < |rules| && FiresAt(rules, path, content, engine, guard, j)
  {
    var p := ApplyRules(rules, path, content, engine, guard);
    ApplyRulesSpec(rules, path, content, engine, guard);
    ReportsSound(rules, path, content, engine, guard, |rules|);
    assert p.changes[0] in p.changes;
  }

  /** `fix_file` writes a file only when some replacement actually changed
      its text: the config import and call are never added on their own. */
  lemma {:induction false} FixFileNeedsAReplacement(path: string, read: FileRead, engine: Engine, guard: SkipGuard)
    requires FixFile(path, read, engine, guard).changed
    ensures read.Read? && exists j :: 0 <= j < |Table| && FiresAt(Table, path, read.text, engine, guard, j)
  {
    ReportedRuleFired(Table, path, read.text, engine, guard);
  }

  // -------------------------------------------------- the keypair guard

  /** A path that is not excluded but whose name contains `test`. */
  const TestnetPath := "testnet.py"

  /** Text without a character of `sub` does not contain `sub`. */
  lemma {:induction false} MissingChar(s: string, sub: string, c: char)
    requires c in sub && c !in s
    ensures !Contains(s, sub)
  {
    var d :| 0 <= d < |sub| && sub[d] == c;
    forall k | 0 <= k <= |s|
      ensures !IsAt(s, sub, k)
    {
      if k + |sub| <= |s| {
        assert s[k..k + |sub|][d] == s[k + d] && s[k + d] in s;
      }
    }
  }

  /** The two keypair rules: their patterns quote `//Alice`, and both are
      replaced by the keypair seed setting. */
  lemma {:induction false} KeypairRules()
    ensures IsAt(Table[10].pattern, "//Alice", 1) && IsAt(Table[11].pattern, "//Alice", 1)
    ensures Table[10].replacement == KeypairSeed && Table[11].replacement == KeypairSeed
  {
    assert Table[10].pattern[1..8] == "//Alice";
    assert Table[11].pattern[1..8] == "//Alice";
  }

  const KeypairSeed := "config.substrate.keypair_seed"

  lemma {:induction false} KeypairSeedHasNoSlash()
    ensures !Contains(KeypairSeed, "//Alice")
  {
    assert "//Alice"[0] == '/';
    assert '/' !in KeypairSeed;
    MissingChar(KeypairSeed, "//Alice", '/');
  }

  /** The two guards on the keypair rules. As written, they are never
      skipped; the corrected guard skips them exactly for paths whose
      lower-cased text contains `test`. */
  lemma {:induction false} KeypairGuards(path: string, i: nat)
    requires i == 10 || i == 11
    ensures !Skip(AsWritten, Table[i], path)
    ensures Skip(Corrected, Table[i], path) <==> Contains(AsciiLower(path), "test")
  {
    KeypairRules();
    KeypairSeedHasNoSlash();
  }

  /** A rule the guard skips for the path has no effect on the replacement
      loop: the result is the one without that rule. */
  lemma {:induction false} SkippedRuleIsInert(rules: seq<Rule>, k: nat, path: string,
                                              content: string, engine: Engine, guard: SkipGuard)
    requires k < |rules| && Skip(guard, rules[k], path)
    ensures ApplyRules(rules, path, content, engine, guard)
         == ApplyRules(rules[..k] + rules[k + 1..], path, content, engine, guard)
    decreases k
  {
    var without := rules[..k] + rules[k + 1..];
    if k == 0 {
      assert without == rules[1..];
    } else {
      assert without[0] == rules[0];
      assert without[1..] == rules[1..][..k - 1] + rules[1..][k..];
      var next := if engine.search(rules[0].pattern, content) && !Skip(guard, rules[0], path)
                  then engine.sub(rules[0].pattern, rules[0].replacement, content) else content;
      SkippedRuleIsInert(rules[1..], k - 1, path, next, engine, guard);
    }
  }

  /** With the corrected guard, the replacement loop on a test path is the
      loop over the first ten rules: the keypair literals of test files are
      kept. */
  lemma {:induction false} CorrectedSparesTestKeypairs(path: string, content: string, engine: Engine)
    requires Contains(AsciiLower(path), "test")
    ensures ApplyRules(Table, path, content, engine, Corrected)
         == ApplyRules(Table[..10], path, content, engine, Corrected)
  {
    KeypairGuards(path, 10);
    KeypairGuards(path, 11);
    SkippedRuleIsInert(Table, 11, path, content, engine, Corrected);
    assert Table[..11] + Table[12..] == Table[..11];
    assert Table[..11][10] == Table[10];
    SkippedRuleIsInert(Table[..11], 10, path, content, engine, Corrected);
    assert Table[..11][..10] + Table[..11][11..] == Table[..10];
  }

  /** Off test paths the two guards skip nothing, so the replacement loop
      does the same under both. */
  lemma {:induction false} GuardsAgreeOffTestPaths(rules: seq<Rule>, path: string, content: string, engine: Engine)
    requires !Contains(AsciiLower(path), "test")
    ensures ApplyRules(rules, path, content, engine, AsWritten)
         == ApplyRules(rules, path, content, engine, Corrected)
    decreases |rules|
  {
    if rules != [] {
      var next := if engine.search(rules[0].pattern, content)
                  then engine.sub(rules[0].pattern, rules[0].replacement, content) else content;
      GuardsAgreeOffTestPaths(rules[1..], path, next, engine);
    }
  }

  /** `fix_file` as written and with the corrected guard give the same result
      for every path whose lower-cased text does not contain `test`. */
  lemma {:induction false} FixFileGuardsAgree(path: string, read: FileRead, engine: Engine)
    requires !Contains(AsciiLower(path), "test")
    ensures FixFile(path, read, engine, AsWritten) == FixFile(path, read, engine, Corrected)
  {
    if read.Read? {
      GuardsAgreeOffTestPaths(Table, path, read.text, engine);
    }
  }

  /** `testnet.py` has neither `test_` nor `tests/` before its `.py`. */
  lemma {:induction false} TestnetHasNoTestPrefix()
    ensures !MatchDotStar(TestnetPath, "test_", ".py")
    ensures !MatchDotStar(TestnetPath, "tests/", ".py")
  {
    var p := TestnetPath;
    assert StripFinalNewline(p) == p;
    var u := p[..|p| - 3];
    assert u == "testnet";
    assert '_' in "test_" && '_' !in u;
    MissingChar(u, "test_", '_');
    assert '/' in "tests/" && '/' !in u;
    MissingChar(u, "tests/", '/');
  }

  /** `testnet.py` ends in none of the excluded names. */
  lemma {:induction false} TestnetHasNoExcludedEnding()
    ensures !MatchDotStar(TestnetPath, "", "_test.py")
    ensures !MatchAtEnd(TestnetPath, "audit_codebase.py")
    ensures !MatchAtEnd(TestnetPath, "fix_hardcoded_values.py")
    ensures !MatchAtEnd(TestnetPath, "config.py")
    ensures !MatchAtEnd(TestnetPath, "substrate_config.py")
  {
    var p := TestnetPath;
    assert StripFinalNewline(p) == p;
    assert p[|p| - 8] != "_test.py"[0];
    assert p[|p| - 9] != "config.py"[0];
  }

  /** `testnet.py` is not excluded, and its lower-cased name contains `test`. */
  lemma {:induction false} TestnetPathIsTestPath()
    ensures !ShouldExcludeFile(TestnetPath)
    ensures Contains(AsciiLower(TestnetPath), "test")
  {
    TestnetHasNoTestPrefix();
    TestnetHasNoExcludedEnding();
    var l := AsciiLower(TestnetPath);
    assert l[..4] == "test";
    assert IsAt(l, "test", 0);
  }

  /** The concrete discrepancy: for `testnet.py` the keypair rule is skipped by
      the guard the code evidently intends and applied by the guard as written. */
  lemma {:induction false} KeypairGuardWitness()
    ensures !ShouldExcludeFile(TestnetPath)
    ensures Skip(Corrected, Table[10], TestnetPath)
    ensures !Skip(AsWritten, Table[10], TestnetPath)
  {
    TestnetPathIsTestPath();
    KeypairGuards(TestnetPath, 10);
  }
}

=== FILE: lint_summary.dfy ===
/** The linting runs of test_hooks.py and the overall summary that joins
    them with the workflow checks. What each external tool does is a
    parameter: whether it is installed and how its process ended. */
module LintSummary {

  import opened Wrappers
  import opened Text
  import WorkflowValidator
  import PyValue

  /** The longest tool output kept whole. */
  const OutputLimit: nat := 1000

  /** The output kept in a failed check: whole when it is at most 1000
      characters, otherwise its first 1000 characters and `...`. */
  function Truncate(output: string): (r: string)
    ensures |output| <= OutputLimit ==> r == output
    ensures |output| > OutputLimit ==> |r| == OutputLimit + 3
    ensures |output| > OutputLimit ==> r[OutputLimit..] == "..."
    ensures |r| <= OutputLimit + 3
    ensures StartsWith(r, output[..if |output| <= OutputLimit then |output| else OutputLimit])
  {
    if |output| > OutputLimit then output[..OutputLimit] + "..." else output
  }

  /** Truncating twice is truncating once. */
  lemma {:induction false} TruncateIdempotent(output: string)
    ensures Truncate(Truncate(output)) == Truncate(output)
  {
    var t := Truncate(output);
    if |output| > OutputLimit {
      assert t[..OutputLimit] == output[..OutputLimit];
    }
  }

  /** How running one tool ended. */
  datatype Outcome =
    | NotInstalled                              // `shutil.which` found nothing
    | Exited(code: int, stdout: string, stderr: string)
    | TimedOut                                  // `subprocess.TimeoutExpired`
    | Crashed                                   // any other exception

  datatype Status = Skipped | Passed | Failed | Timeout | Error

  /** One entry of the `checks` list; `output` is present for a failed run. */
  datatype Check = Check(tool: string, status: Status, output: Option<string>)

  /** The `summary` counts of a linting run; `warnings` stays 0. */
  datatype Report = Report(total: nat, passed: nat, errors: nat, warnings: nat, checks: seq<Check>)

  /** The Python tools, in the order they run. */
  const PythonTools: seq<string> := ["black", "isort", "flake8", "mypy", "pylint"]

  /** The Rust checks, in the order they run. */
  const RustChecks: seq<string> := ["cargo check", "cargo fmt", "cargo clippy", "cargo test"]

  /** The check for one tool run. When `probe` is set, a tool that is not
      installed is skipped (the Python runs ask `shutil.which` first); the
      Rust runs do not ask, so a missing program fails to start and counts
      as an error. */
  function CheckOf(tool: string, o: Outcome, probe: bool): Check {
    match o
    case NotInstalled => if probe then Check(tool, Skipped, None) else Check(tool, Error, None)
    case Exited(code, out, err) =>
      if code == 0 then Check(tool, Passed, None) else Check(tool, Failed, Some(Truncate(out + err)))
    case TimedOut => Check(tool, Timeout, None)
    case Crashed => Check(tool, Error, None)
  }

  predicate IsError(c: Check) {
    c.status == Failed || c.status == Timeout || c.status == Error
  }

  /** The number of checks with the given status. */
  function CountStatus(cs: seq<Check>, s: Status): nat {
    if cs == [] then 0 else (if cs[0].status == s then 1 else 0) + CountStatus(cs[1..], s)
  }

  /** The loop over the tools: one check per tool, in order; a passing run
      adds to `passed_checks`, and a failed, timed-out or crashed run to
      `errors`. */
  function RunTools(tools: seq<string>, outcome: string -> Outcome, probe: bool): (r: Report)
    ensures r.total == |tools| == |r.checks| && r.warnings == 0
    decreases |tools|
  {
    if tools == [] then Report(0, 0, 0, 0, [])
    else
      var c := CheckOf(tools[0], outcome(tools[0]), probe);
      var rest := RunTools(tools[1..], outcome, probe);
      Report(rest.total + 1, rest.passed + (if c.status == Passed then 1 else 0),
             rest.errors + (if IsError(c) then 1 else 0), 0, [c] + rest.checks)
  }

  /** Check `i` is the check of tool `i`, and the counters agree with the
      statuses of the checks: `passed` counts the passed ones, `errors` the
      failed, timed-out and crashed ones. */
  lemma {:induction false} RunToolsCounts(tools: seq<string>, outcome: string -> Outcome, probe: bool)
    ensures var r := RunTools(tools, outcome, probe);
      && (forall i :: 0 <= i < |tools| ==> r.checks[i] == CheckOf(tools[i], outcome(tools[i]), probe))
      && r.passed == CountStatus(r.checks, Passed)
      && r.errors == CountStatus(r.checks, Failed) + CountStatus(r.checks, Timeout) + CountStatus(r.checks, Error)
    decreases |tools|
  {
    if tools != [] {
      var r := RunTools(tools, outcome, probe);
      var rest := RunTools(tools[1..], outcome, probe);
      RunToolsCounts(tools[1..], outcome, probe);
      assert r.checks[1..] == rest.checks;
      forall i | 1 <= i < |tools|
        ensures r.checks[i] == CheckOf(tools[i], outcome(tools[i]), probe)
      {
        assert r.checks[i] == rest.checks[i - 1] && tools[i] == tools[1..][i - 1];
      }
    }
  }

  /** Every check is counted exactly once: passed, errors and skipped add up
      to the total. */
  lemma {:induction false} StatusesPartition(cs: seq<Check>)
    ensures CountStatus(cs, Passed) + CountStatus(cs, Failed) + CountStatus(cs, Timeout)
          + CountStatus(cs, Error) + CountStatus(cs, Skipped) == |cs|
    decreases |cs|
  {
    if cs != [] {
      StatusesPartition(cs[1..]);
    }
  }

  /** A failed check keeps the truncated output of the run. */
  lemma {:induction false} FailedKeepsOutput(tool: string, code: int, out: string, err: string, probe: bool)
    requires code != 0
    ensures var c := CheckOf(tool, Exited(code, out, err), probe);
      c.status == Failed && c.output == Some(Truncate(out + err))
      && (|out + err| <= OutputLimit ==> c.output.value == out + err)
  {
  }

  /** `run_python_linting`: with no Python file, one skipped check and no
      counts; otherwise the five tools, skipping those not installed. */
  function RunPythonLinting(hasPythonFiles: bool, outcome: string -> Outcome): (r: Report)
    ensures !hasPythonFiles ==> r.total == 0 && r.errors == 0 && |r.checks| == 1
    ensures hasPythonFiles ==> r.total == 5 && r.passed + r.errors <= r.total
  {
    if !hasPythonFiles then Report(0, 0, 0, 0, [Check("python", Skipped, None)])
    else
      var r := RunTools(PythonTools, outcome, true);
      RunToolsCounts(PythonTools, outcome, true);
      StatusesPartition(r.checks);
      r
  }

  /** `run_rust_linting`: skipped without `Cargo.toml` or without `cargo`;
      otherwise the four checks, each of which passes or counts as an error. */
  function RunRustLinting(hasCargoToml: bool, hasCargo: bool, outcome: string -> Outcome): (r: Report)
    ensures !(hasCargoToml && hasCargo) ==> r.total == 0 && r.errors == 0 && |r.checks| == 1
    ensures hasCargoToml && hasCargo ==> r.total == 4 && r.passed + r.errors == r.total
  {
    if !hasCargoToml then Report(0, 0, 0, 0, [Check("rust", Skipped, None)])
    else if !hasCargo then Report(0, 0, 0, 0, [Check("cargo", Skipped, None)])
    else
      var r := RunTools(RustChecks, outcome, false);
      RunToolsCounts(RustChecks, outcome, false);
      NoSkipWithoutProbe(RustChecks, outcome);
      StatusesPartition(r.checks);
      r
  }

  /** Without the probe no check is skipped. */
  lemma {:induction false} NoSkipWithoutProbe(tools: seq<string>, outcome: string -> Outcome)
    ensures CountStatus(RunTools(tools, outcome, false).checks, Skipped) == 0
    decreases |tools|
  {
    if tools != [] {
      var r := RunTools(tools, outcome, false);
      NoSkipWithoutProbe(tools[1..], outcome);
      assert r.checks[1..] == RunTools(tools[1..], outcome, false).checks;
    }
  }

  datatype OverallStatus = OverallPassed | OverallFailed

  /** The overall summary of `run_comprehensive_validation`. */
  datatype Overall = Overall(totalErrors: nat, totalWarnings: nat, status: OverallStatus)

  /** The overall summary: errors of the three runs added up, warnings from
      the workflow run alone, and `passed` exactly when there is no error. */
  function Comprehensive(workflows: WorkflowValidator.Summary, python: Report, rust: Report): (o: Overall)
    ensures o.status == OverallPassed <==> workflows.errors == 0 && python.errors == 0 && rust.errors == 0
    ensures o.totalWarnings == workflows.warnings
    ensures o.totalErrors >= workflows.errors && o.totalErrors >= python.errors && o.totalErrors >= rust.errors
    ensures o.totalErrors == workflows.errors + python.errors + rust.errors
  {
    var total := workflows.errors + python.errors + rust.errors;
    Overall(total, workflows.warnings, if total == 0 then OverallPassed else OverallFailed)
  }

  /** With the workflows directory present, the project passes exactly when
      every workflow file passes its structure check and no tool run failed,
      timed out or crashed. */
  lemma {:induction false} ComprehensivePasses(files: seq<PyValue.FileRead>, load: string -> WorkflowValidator.Loaded,
                                              localExists: string -> bool, secretWarnings: PyValue.FileRead -> nat,
                                              python: Report, rust: Report)
    ensures var w := WorkflowValidator.RunWorkflowValidation(true, files, load, localExists, secretWarnings);
      Comprehensive(w, python, rust).status == OverallPassed
      <==> && (forall i :: 0 <= i < |files| ==> WorkflowValidator.ValidateWorkflowSyntax(files[i], load).valid)
           && python.errors == 0 && rust.errors == 0
  {
    WorkflowValidator.RunErrorFree(files, load, localExists, secretWarnings);
  }
}

=== FILE: mcp.dfy ===
/** Value types of the Model Context Protocol pallet (pallets/mcp/src/lib.rs):
    protocol versions and their byte-string decoding, server capabilities,
    transports, and the records for servers, tools, prompts and resources
    with their length-bounded byte fields. */
module Mcp {

  import opened Wrappers

  /** Rust's `u8`. */
  type Byte = x: int | 0 <= x < 256

  /** Rust's `u64`: server, tool, prompt and resource identifiers and block numbers. */
  type U64 = x: int | 0 <= x < 0x1_0000_0000_0000_0000

  /** The bytes of a Rust byte-string literal written with ASCII characters. */
  function Ascii(s: string): (r: seq<Byte>)
    requires forall i :: 0 <= i < |s| ==> s[i] as int < 128
    ensures |r| == |s|
    ensures forall i :: 0 <= i < |s| ==> r[i] == s[i] as int
  {
    seq(|s|, i requires 0 <= i < |s| => s[i] as int)
  }

  // ---------------------------------------------------------------- versions

  /** The protocol versions the pallet knows. */
  datatype ProtocolVersion = V20241105 | V20250326

  datatype ProtocolVersionError = UnsupportedVersion

  /** `ProtocolVersion::V_2024_11_05`. */
  const V_2024_11_05: seq<Byte> := Ascii("2024-11-05")

  /** `ProtocolVersion::V_2025_03_26`. */
  const V_2025_03_26: seq<Byte> := Ascii("2025-03-26")

  /** The byte-string constant that names a version. */
  function VersionBytes(v: ProtocolVersion): seq<Byte> {
    match v
    case V20241105 => V_2024_11_05
    case V20250326 => V_2025_03_26
  }

  /** `ProtocolVersion::new`: decode a version from its byte string. */
  function NewProtocolVersion(version: seq<Byte>): (r: Result<ProtocolVersion, ProtocolVersionError>)
    ensures r.Err? ==> r.error == UnsupportedVersion
    ensures r.Ok? ==> VersionBytes(r.value) == version
  {
    if version == V_2024_11_05 then Ok(V20241105)
    else if version == V_2025_03_26 then Ok(V20250326)
    else Err(UnsupportedVersion)
  }

  /** The two version constants differ (in their fourth byte). */
  lemma {:induction false} VersionConstantsDiffer()
    ensures V_2024_11_05 != V_2025_03_26
  {
    assert V_2024_11_05[3] != V_2025_03_26[3];
  }

  /** Decoding is the inverse of naming: the constant of a version decodes to
      that version, and a byte string decodes to a version only if it is that
      version's constant. Every other byte string is unsupported. */
  lemma {:induction false} ProtocolVersionRoundTrip(v: ProtocolVersion, bytes: seq<Byte>)
    ensures NewProtocolVersion(VersionBytes(v)) == Ok(v)
    ensures NewProtocolVersion(bytes) == Ok(v) <==> bytes == VersionBytes(v)
    ensures NewProtocolVersion(bytes).Err?
      <==> bytes != VersionBytes(V20241105) && bytes != VersionBytes(V20250326)
  {
    VersionConstantsDiffer();
  }

  /** `ProtocolVersion::latest`. */
  function Latest(): ProtocolVersion {
    V20250326
  }

  /** `ProtocolVersion::v_2024_11_05`. */
  function Version20241105(): ProtocolVersion {
    V20241105
  }

  /** `ProtocolVersion::default()`, from the `#[default]` variant. */
  function DefaultProtocolVersion(): ProtocolVersion {
    V20241105
  }

  /** The default version is the 2024-11-05 one, not the latest; the constants
      decode to the versions the constructors name. */
  lemma {:induction false} ProtocolVersionDefaults()
    ensures DefaultProtocolVersion() == Version20241105()
    ensures DefaultProtocolVersion() != Latest()
    ensures NewProtocolVersion(Ascii("2024-11-05")) == Ok(Version20241105())
    ensures NewProtocolVersion(Ascii("2025-03-26")) == Ok(Latest())
  {
    VersionConstantsDiffer();
  }

  // ------------------------------------------------------------ capabilities

  datatype ToolsCapability = ToolsCapability(listChanged: Option<bool>)

  datatype PromptsCapability = PromptsCapability(listChanged: Option<bool>)

  datatype ResourcesCapability = ResourcesCapability(subscribe: Option<bool>, listChanged: Option<bool>)

  datatype ServerCapabilities = ServerCapabilities(
    logging: Option<bool>,
    completions: Option<bool>,
    tools: Option<ToolsCapability>,
    prompts: Option<PromptsCapability>,
    resources: Option<ResourcesCapability>,
    sampling: Option<bool>)

  /** `ServerCapabilities::default()`, derived field by field. */
  function DefaultCapabilities(): ServerCapabilities {
    ServerCapabilities(None, None, None, None, None, None)
  }

  /** A capability set is empty when it advertises nothing. */
  predicate NoCapabilities(c: ServerCapabilities) {
    c.logging.None? && c.completions.None? && c.tools.None?
    && c.prompts.None? && c.resources.None? && c.sampling.None?
  }

  /** `ServerCapabilities { tools: Some(t), ..Default::default() }`. */
  function WithTools(t: ToolsCapability): (c: ServerCapabilities)
    ensures c.tools == Some(t)
    ensures NoCapabilities(c.(tools := None))
  {
    DefaultCapabilities().(tools := Some(t))
  }

  /** The default advertises nothing; overriding only the tools leaves the
      other five absent, and the default is the only empty capability set. */
  lemma {:induction false} CapabilitiesDefault(t: ToolsCapability, c: ServerCapabilities)
    ensures NoCapabilities(DefaultCapabilities())
    ensures WithTools(t).tools.Some? && WithTools(t).tools.value.listChanged == t.listChanged
    ensures NoCapabilities(c) <==> c == DefaultCapabilities()
  {
  }

  /** `ToolAnnotations`, with its length-bounded title. */
  datatype ToolAnnotations = ToolAnnotations(
    title: Option<Bounded128>,
    readOnlyHint: Option<bool>,
    destructiveHint: Option<bool>,
    idempotentHint: Option<bool>,
    openWorldHint: Option<bool>)

  /** `ToolAnnotations::default()`. */
  function DefaultToolAnnotations(): ToolAnnotations {
    ToolAnnotations(None, None, None, None, None)
  }

  // -------------------------------------------------------- bounded vectors

  /** `BoundedVec<u8, ConstU32<N>>` for each bound the pallet uses. */
  type Bounded32 = s: seq<Byte> | |s| <= 32
  type Bounded64 = s: seq<Byte> | |s| <= 64
  type Bounded128 = s: seq<Byte> | |s| <= 128
  type Bounded256 = s: seq<Byte> | |s| <= 256
  type Bounded1024 = s: seq<Byte> | |s| <= 1024
  type Bounded2048 = s: seq<Byte> | |s| <= 2048

  /** `IpfsCid`. */
  type IpfsCid = Bounded64

  /** The record fields whose conversion into a bounded vector can fail. */
  datatype Field =
    | Name | Description | InputSchema | OutputSchema | Template | ParameterSchema
    | Category | Uri | MimeType | ContentCid | MetadataCid | Title | Endpoint

  /** The bound the pallet puts on each field. */
  function Bound(f: Field): nat {
    match f
    case Name => 64
    case Description => 256
    case InputSchema => 2048
    case OutputSchema => 2048
    case Template => 2048
    case ParameterSchema => 1024
    case Category => 32
    case Uri => 256
    case MimeType => 64
    case ContentCid => 64
    case MetadataCid => 64
    case Title => 128
    case Endpoint => 256
  }

  /** A byte vector too long for the named field. */
  datatype FieldError = TooLong(field: Field)

  predicate Fits(bytes: seq<Byte>, f: Field) {
    |bytes| <= Bound(f)
  }

  predicate FitsOpt(bytes: Option<seq<Byte>>, f: Field) {
    bytes.None? || Fits(bytes.value, f)
  }

  // ------------------------------------------------------------- transports

  datatype TransportConfig =
    | Stdio
    | Http(endpoint: Bounded256)
    | Sse(endpoint: Bounded256)
    | WebSocket(endpoint: Bounded256)

  /** `TransportConfig::default()`. */
  function DefaultTransport(): TransportConfig {
    Stdio
  }

  datatype EndpointKind = HttpKind | SseKind | WebSocketKind

  /** A transport with an endpoint, built from a byte vector; fails when the
      endpoint is longer than its bound. */
  function NewTransport(kind: EndpointKind, endpoint: seq<Byte>): (r: Result<TransportConfig, FieldError>)
    ensures r.Ok? <==> Fits(endpoint, Endpoint)
    ensures r.Ok? ==> r.value != DefaultTransport() && r.value.endpoint == endpoint
    ensures r.Err? ==> r.error == TooLong(Endpoint)
  {
    if !Fits(endpoint, Endpoint) then Err(TooLong(Endpoint))
    else match kind
      case HttpKind => Ok(Http(endpoint))
      case SseKind => Ok(Sse(endpoint))
      case WebSocketKind => Ok(WebSocket(endpoint))
  }

  // ---------------------------------------------------------------- records

  datatype ServerInfo<AccountId> = ServerInfo(
    owner: AccountId,
    name: Bounded64,
    description: Option<Bounded256>,
    protocolVersion: ProtocolVersion,
    capabilities: ServerCapabilities,
    transport: TransportConfig,
    metadataCid: Option<IpfsCid>,
    active: bool,
    createdAt: U64,
    updatedAt: U64)

  datatype ToolInfo = ToolInfo(
    serverId: U64,
    name: Bounded64,
    description: Option<Bounded256>,
    inputSchema: Bounded2048,
    outputSchema: Option<Bounded2048>,
    annotations: Option<ToolAnnotations>,
    metadataCid: Option<IpfsCid>,
    active: bool)

  datatype PromptTemplate = PromptTemplate(
    serverId: U64,
    name: Bounded64,
    description: Option<Bounded256>,
    template: Bounded2048,
    parameterSchema: Option<Bounded1024>,
    category: Option<Bounded32>,
    metadataCid: Option<IpfsCid>,
    active: bool)

  datatype ResourceInfo = ResourceInfo(
    serverId: U64,
    name: Bounded64,
    description: Option<Bounded256>,
    uri: Bounded256,
    mimeType: Option<Bounded64>,
    contentCid: IpfsCid,
    metadataCid: Option<IpfsCid>,
    active: bool)

  /** Building a `ServerInfo` from byte vectors, as the pallet's callers do with
      `try_into()`: it succeeds exactly when every field is within its bound,
      and then holds exactly the given values. Fields are converted in
      declaration order, so the error names the first one too long. */
  function NewServerInfo<AccountId>(
    owner: AccountId, name: seq<Byte>, description: Option<seq<Byte>>,
    protocolVersion: ProtocolVersion, capabilities: ServerCapabilities,
    transport: TransportConfig, metadataCid: Option<seq<Byte>>,
    active: bool, createdAt: U64, updatedAt: U64): (r: Result<ServerInfo<AccountId>, FieldError>)
    ensures r.Ok? <==> Fits(name, Name) && FitsOpt(description, Description) && FitsOpt(metadataCid, MetadataCid)
    ensures r.Ok? ==> r.value == ServerInfo(owner, name, description, protocolVersion, capabilities,
                                            transport, metadataCid, active, createdAt, updatedAt)
    ensures r == Err(TooLong(Name)) <==> !Fits(name, Name)
  {
    if !Fits(name, Name) then Err(TooLong(Name))
    else if !FitsOpt(description, Description) then Err(TooLong(Description))
    else if !FitsOpt(metadataCid, MetadataCid) then Err(TooLong(MetadataCid))
    else
      var d: Option<Bounded256> := if description.None? then None else Some(description.value);
      var m: Option<IpfsCid> := if metadataCid.None? then None else Some(metadataCid.value);
      Ok(ServerInfo(owner, name, d, protocolVersion, capabilities, transport, m, active, createdAt, updatedAt))
  }

  /** Building `ToolAnnotations` from an optional title. */
  function NewToolAnnotations(title: Option<seq<Byte>>, readOnly: Option<bool>, destructive: Option<bool>,
                              idempotent: Option<bool>, openWorld: Option<bool>): (r: Result<ToolAnnotations, FieldError>)
    ensures r.Ok? <==> FitsOpt(title, Title)
    ensures r.Ok? ==> && r.value.title == title && r.value.readOnlyHint == readOnly
                      && r.value.destructiveHint == destructive && r.value.idempotentHint == idempotent
                      && r.value.openWorldHint == openWorld
    ensures r.Err? ==> r.error == TooLong(Title)
  {
    if !FitsOpt(title, Title) then Err(TooLong(Title))
    else
      var t: Option<Bounded128> := if title.None? then None else Some(title.value);
      Ok(ToolAnnotations(t, readOnly, destructive, idempotent, openWorld))
  }

  /** Building a `ToolInfo` from byte vectors. */
  function NewToolInfo(
    serverId: U64, name: seq<Byte>, description: Option<seq<Byte>>, inputSchema: seq<Byte>,
    outputSchema: Option<seq<Byte>>, annotations: Option<ToolAnnotations>,
    metadataCid: Option<seq<Byte>>, active: bool): (r: Result<ToolInfo, FieldError>)
    ensures r.Ok? <==> Fits(name, Name) && FitsOpt(description, Description) && Fits(inputSchema, InputSchema)
                       && FitsOpt(outputSchema, OutputSchema) && FitsOpt(metadataCid, MetadataCid)
    ensures r.Ok? ==> && r.value.serverId == serverId && r.value.name == name
                      && r.value.description == description && r.value.inputSchema == inputSchema
                      && r.value.outputSchema == outputSchema && r.value.annotations == annotations
                      && r.value.metadataCid == metadataCid && r.value.active == active
    ensures r == Err(TooLong(Name)) <==> !Fits(name, Name)
  {
    if !Fits(name, Name) then Err(TooLong(Name))
    else if !FitsOpt(description, Description) then Err(TooLong(Description))
    else if !Fits(inputSchema, InputSchema) then Err(TooLong(InputSchema))
    else if !FitsOpt(outputSchema, OutputSchema) then Err(TooLong(OutputSchema))
    else if !FitsOpt(metadataCid, MetadataCid) then Err(TooLong(MetadataCid))
    else
      var d: Option<Bounded256> := if description.None? then None else Some(description.value);
      var o: Option<Bounded2048> := if outputSchema.None? then None else Some(outputSchema.value);
      var m: Option<IpfsCid> := if metadataCid.None? then None else Some(metadataCid.value);
      Ok(ToolInfo(serverId, name, d, inputSchema, o, annotations, m, active))
  }

  /** Building a `PromptTemplate` from byte vectors. */
  function NewPromptTemplate(
    serverId: U64, name: seq<Byte>, description: Option<seq<Byte>>, template: seq<Byte>,
    parameterSchema: Option<seq<Byte>>, category: Option<seq<Byte>>,
    metadataCid: Option<seq<Byte>>, active: bool): (r: Result<PromptTemplate, FieldError>)
    ensures r.Ok? <==> Fits(name, Name) && FitsOpt(description, Description) && Fits(template, Template)
                       && FitsOpt(parameterSchema, ParameterSchema) && FitsOpt(category, Category)
                       && FitsOpt(metadataCid, MetadataCid)
    ensures r.Ok? ==> && r.value.serverId == serverId && r.value.name == name
                      && r.value.description == description && r.value.template == template
                      && r.value.parameterSchema == parameterSchema && r.value.category == category
                      && r.value.metadataCid == metadataCid && r.value.active == active
    ensures r == Err(TooLong(Name)) <==> !Fits(name, Name)
  {
    if !Fits(name, Name) then Err(TooLong(Name))
    else if !FitsOpt(description, Description) then Err(TooLong(Description))
    else if !Fits(template, Template) then Err(TooLong(Template))
    else if !FitsOpt(parameterSchema, ParameterSchema) then Err(TooLong(ParameterSchema))
    else if !FitsOpt(category, Category) then Err(TooLong(Category))
    else if !FitsOpt(metadataCid, MetadataCid) then Err(TooLong(MetadataCid))
    else
      var d: Option<Bounded256> := if description.None? then None else Some(description.value);
      var p: Option<Bounded1024> := if parameterSchema.None? then None else Some(parameterSchema.value);
      var c: Option<Bounded32> := if category.None? then None else Some(category.value);
      var m: Option<IpfsCid> := if metadataCid.None? then None else Some(metadataCid.value);
      Ok(PromptTemplate(serverId, name, d, template, p, c, m, active))
  }

  /** Building a `ResourceInfo` from byte vectors. */
  function NewResourceInfo(
    serverId: U64, name: seq<Byte>, description: Option<seq<Byte>>, uri: seq<Byte>,
    mimeType: Option<seq<Byte>>, contentCid: seq<Byte>,
    metadataCid: Option<seq<Byte>>, active: bool): (r: Result<ResourceInfo, FieldError>)
    ensures r.Ok? <==> Fits(name, Name) && FitsOpt(description, Description) && Fits(uri, Uri)
                       && FitsOpt(mimeType, MimeType) && Fits(contentCid, ContentCid)
                       && FitsOpt(metadataCid, MetadataCid)
    ensures r.Ok? ==> && r.value.serverId == serverId && r.value.name == name
                      && r.value.description == description && r.value.uri == uri
                      && r.value.mimeType == mimeType && r.value.contentCid == contentCid
                      && r.value.metadataCid == metadataCid && r.value.active == active
    ensures r == Err(TooLong(Name)) <==> !Fits(name, Name)
  {
    if !Fits(name, Name) then Err(TooLong(Name))
    else if !FitsOpt(description, Description) then Err(TooLong(Description))
    else if !Fits(uri, Uri) then Err(TooLong(Uri))
    else if !FitsOpt(mimeType, MimeType) then Err(TooLong(MimeType))
    else if !Fits(contentCid, ContentCid) then Err(TooLong(ContentCid))
    else if !FitsOpt(metadataCid, MetadataCid) then Err(TooLong(MetadataCid))
    else
      var d: Option<Bounded256> := if description.None? then None else Some(description.value);
      var t: Option<Bounded64> := if mimeType.None? then None else Some(mimeType.value);
      var m: Option<IpfsCid> := if metadataCid.None? then None else Some(metadataCid.value);
      Ok(ResourceInfo(serverId, name, d, uri, t, contentCid, m, active))
  }

  /** The resource built in the pallet's own unit test keeps its values. */
  lemma {:induction false} ResourceInfoExample()
    ensures var r := NewResourceInfo(1, Ascii("test-resource"), Some(Ascii("Test resource description")),
                                     Ascii("file://test.txt"), Some(Ascii("text/plain")),
                                     Ascii("QmTest123"), None, true);
      && r.Ok?
      && r.value.serverId == 1
      && r.value.name == Ascii("test-resource")
      && r.value.uri == Ascii("file://test.txt")
      && r.value.contentCid == Ascii("QmTest123")
      && r.value.active
  {
  }

  /** A name of 65 bytes is refused, whatever the other fields hold. */
  lemma {:induction false} NameTooLongRefused(serverId: U64, name: seq<Byte>, template: seq<Byte>)
    requires |name| == 65
    ensures NewPromptTemplate(serverId, name, None, template, None, None, None, true) == Err(TooLong(Name))
  {
  }
}

=== FILE: metadata.dfy ===
/** `validate_metadata` of the module registry client: module metadata is
    valid when it has the three required fields. */
module MetadataValidation {

  /** The required fields. */
  const RequiredFields: seq<string> := ["name", "version", "description"]

  /** Every field of `fields` is a key of the metadata. */
  predicate AllPresent<V>(fields: seq<string>, metadata: map<string, V>) {
    if fields == [] then true else fields[0] in metadata && AllPresent(fields[1..], metadata)
  }

  lemma {:induction false} AllPresentIn<V>(fields: seq<string>, metadata: map<string, V>)
    ensures AllPresent(fields, metadata) <==> forall f :: f in fields ==> f in metadata
    decreases |fields|
  {
    if fields != [] {
      AllPresentIn(fields[1..], metadata);
      assert forall f :: f in fields <==> f == fields[0] || f in fields[1..];
    }
  }

  /** The check succeeds exactly when `name`, `version` and `description`
      are all keys. */
  function ValidateMetadata<V>(metadata: map<string, V>): (r: bool)
    ensures r <==> {"name", "version", "description"} <= metadata.Keys
  {
    AllPresentIn(RequiredFields, metadata);
    assert forall f :: f in RequiredFields <==> f in {"name", "version", "description"};
    AllPresent(RequiredFields, metadata)
  }

  /** Leaving out any required field makes the metadata invalid. */
  lemma {:induction false} MissingFieldInvalid<V>(metadata: map<string, V>, field: string)
    requires field in RequiredFields && field !in metadata
    ensures !ValidateMetadata(metadata)
  {
  }

  /** The values are never looked at: metadata with the same keys get the
      same answer. */
  lemma {:induction false} OnlyKeysMatter<V, W>(a: map<string, V>, b: map<string, W>)
    requires a.Keys == b.Keys
    ensures ValidateMetadata(a) == ValidateMetadata(b)
  {
  }

  /** Adding fields to valid metadata keeps it valid. */
  lemma {:induction false} ExtraFieldsKeepValid<V>(a: map<string, V>, b: map<string, V>)
    requires ValidateMetadata(a) && a.Keys <= b.Keys
    ensures ValidateMetadata(b)
  {
  }
}

=== FILE: py_value.dfy ===
/** The Python values a YAML document loads into (`yaml.safe_load`), and
    the few Python operations the validators apply to them: `in`, `[]`,
    iteration and `.keys()`, each with the exception it raises on a value
    of the wrong kind. */
module PyValue {

  import opened Wrappers
  import opened Text

  /** A loaded value. A mapping is its entries in insertion order; the
      loader gives every key once. Floats, dates and binary scalars are not
      modelled. */
  datatype Value =
    | VNone
    | VBool(b: bool)
    | VInt(i: int)
    | VStr(s: string)
    | VList(items: seq<Value>)
    | VMap(entries: seq<Entry>)

  datatype Entry = Entry(key: Value, val: Value)

  /** What reading a file gives: its text, or an error that the caller
      catches. */
  datatype FileRead = Unreadable | Read(text: string)

  /** A Python exception raised by one of the operations below
      (`TypeError`, `AttributeError`, `KeyError`). */
  datatype Raised = Raised

  /** The integer a `bool` or `int` compares as: Python's `True == 1` and
      `False == 0`. */
  function Num(v: Value): Option<int> {
    match v
    case VBool(b) => Some(if b then 1 else 0)
    case VInt(i) => Some(i)
    case _ => None
  }

  /** `item == needle` for a scalar needle: numbers compare by value, other
      values only equal values of their own kind. */
  predicate Matches(item: Value, needle: Value) {
    if Num(item).Some? && Num(needle).Some? then Num(item) == Num(needle) else item == needle
  }

  /** `needle in d` for a mapping. */
  predicate HasKey(es: seq<Entry>, needle: Value) {
    exists i :: 0 <= i < |es| && Matches(es[i].key, needle)
  }

  /** `needle in xs` for a list. */
  predicate Lists(xs: seq<Value>, needle: Value) {
    exists i :: 0 <= i < |xs| && Matches(xs[i], needle)
  }

  /** `d[needle]` for a mapping: the value of the key equal to the needle,
      or nothing (`KeyError`). */
  function Lookup(es: seq<Entry>, needle: Value): (r: Option<Value>)
    ensures r.Some? <==> HasKey(es, needle)
    ensures r.Some? ==> exists i :: 0 <= i < |es| && Matches(es[i].key, needle) && es[i].val == r.value
  {
    if es == [] then None
    else if Matches(es[0].key, needle) then Some(es[0].val)
    else
      var r := Lookup(es[1..], needle);
      assert HasKey(es[1..], needle) ==> HasKey(es, needle) by {
        if HasKey(es[1..], needle) {
          var i :| 0 <= i < |es[1..]| && Matches(es[1..][i].key, needle);
          assert es[i + 1] == es[1..][i];
        }
      }
      assert HasKey(es, needle) ==> HasKey(es[1..], needle) by {
        if HasKey(es, needle) {
          var i :| 0 <= i < |es| && Matches(es[i].key, needle);
          assert i > 0 && es[1..][i - 1] == es[i];
        }
      }
      if r.Some? then
        assert exists i :: 0 <= i < |es| && Matches(es[i].key, needle) && es[i].val == r.value by {
          var i :| 0 <= i < |es[1..]| && Matches(es[1..][i].key, needle) && es[1..][i].val == r.value;
          assert es[i + 1] == es[1..][i];
        }
        r
      else r
  }

  /** `list(d.keys())`. */
  function Keys(es: seq<Entry>): (r: seq<Value>)
    ensures |r| == |es| && forall i :: 0 <= i < |es| ==> r[i] == es[i].key
  {
    seq(|es|, i requires 0 <= i < |es| => es[i].key)
  }

  /** A mapping's keys, as a list, hold what the mapping holds. */
  lemma {:induction false} KeysListHasKey(es: seq<Entry>, needle: Value)
    ensures Lists(Keys(es), needle) <==> HasKey(es, needle)
  {
    var ks := Keys(es);
    if HasKey(es, needle) {
      var i :| 0 <= i < |es| && Matches(es[i].key, needle);
      assert Matches(ks[i], needle);
    }
    if Lists(ks, needle) {
      var i :| 0 <= i < |ks| && Matches(ks[i], needle);
      assert Matches(es[i].key, needle);
    }
  }

  /** `needle in container` for a string needle: a substring test on a
      string, an element test on a list, a key test on a mapping, and a
      `TypeError` on anything else. */
  function In(needle: string, container: Value): (r: Result<bool, Raised>)
    ensures r.Err? <==> !(container.VStr? || container.VList? || container.VMap?)
    ensures container.VStr? ==> r == Ok(Contains(container.s, needle))
    ensures container.VList? ==> r == Ok(Lists(container.items, VStr(needle)))
    ensures container.VMap? ==> r == Ok(HasKey(container.entries, VStr(needle)))
  {
    match container
    case VStr(s) => Ok(Contains(s, needle))
    case VList(items) => Ok(Lists(items, VStr(needle)))
    case VMap(es) => Ok(HasKey(es, VStr(needle)))
    case _ => Err(Raised)
  }

  /** `container[key]` for a string key: only a mapping holding the key
      answers; strings and lists refuse a string index. */
  function Index(container: Value, key: string): (r: Result<Value, Raised>)
    ensures r.Ok? <==> container.VMap? && HasKey(container.entries, VStr(key))
    ensures r.Ok? ==> Lookup(container.entries, VStr(key)) == Some(r.value)
  {
    if container.VMap? then
      match Lookup(container.entries, VStr(key))
      case Some(v) => Ok(v)
      case None => Err(Raised)
    else Err(Raised)
  }

  /** `for x in v`: the items of a list, the keys of a mapping, the
      one-character strings of a string; anything else raises `TypeError`. */
  function Iterate(v: Value): (r: Result<seq<Value>, Raised>)
    ensures r.Err? <==> !(v.VStr? || v.VList? || v.VMap?)
    ensures v.VList? ==> r == Ok(v.items)
    ensures v.VMap? ==> r == Ok(Keys(v.entries))
    ensures v.VStr? ==> r.Ok? && |r.value| == |v.s|
    ensures v.VStr? ==> forall i :: 0 <= i < |v.s| ==> r.value[i] == VStr([v.s[i]])
  {
    match v
    case VStr(s) => Ok(seq(|s|, i requires 0 <= i < |s| => VStr([s[i]])))
    case VList(items) => Ok(items)
    case VMap(es) => Ok(Keys(es))
    case _ => Err(Raised)
  }
}

=== FILE: text.dfy ===
/** String operations with the meaning Python gives them (`str.strip`,
    `str.split`, `str.join`, `in` on strings, `str(int)`, `int(str)`).
    Strings are sequences of Unicode code points, as Python's are. */
module Text {

  import opened Wrappers

  /** Python's `str.isspace` for one code point: the characters
      `str.strip()` with no argument removes. */
  predicate IsSpace(c: char) {
    var n := c as int;
    (9 <= n <= 13) || (28 <= n <= 32) || n == 0x85 || n == 0xA0 || n == 0x1680
    || (0x2000 <= n <= 0x200A) || n == 0x2028 || n == 0x2029 || n == 0x202F
    || n == 0x205F || n == 0x3000
  }

  predicate AllSpace(s: string) {
    forall i :: 0 <= i < |s| ==> IsSpace(s[i])
  }

  /** The number of whitespace characters `s.lstrip()` removes. */
  function LeadingSpace(s: string): (k: nat)
    ensures k <= |s|
    ensures forall i :: 0 <= i < k ==> IsSpace(s[i])
    ensures k == |s| || !IsSpace(s[k])
  {
    if |s| > 0 && IsSpace(s[0]) then
      var k' := LeadingSpace(s[1..]);
      assert forall i :: 1 <= i < 1 + k' ==> s[i] == s[1..][i - 1];
      1 + k'
    else 0
  }

  /** The length of what `s.rstrip()` keeps. */
  function TrailingStart(s: string): (k: nat)
    ensures k <= |s|
    ensures forall i :: k <= i < |s| ==> IsSpace(s[i])
    ensures k == 0 || !IsSpace(s[k - 1])
  {
    if |s| > 0 && IsSpace(s[|s| - 1]) then TrailingStart(s[..|s| - 1]) else |s|
  }

  /** `s.lstrip()`. */
  function LStrip(s: string): string {
    s[LeadingSpace(s)..]
  }

  /** `s.rstrip()`. */
  function RStrip(s: string): string {
    s[..TrailingStart(s)]
  }

  /** `s.strip()`: nothing is left of whitespace-only text, and otherwise
      neither end of the result is whitespace. */
  function Strip(s: string): (r: string)
    ensures r == [] || (!IsSpace(r[0]) && !IsSpace(r[|r| - 1]))
    ensures r == [] <==> AllSpace(s)
  {
    var a := LeadingSpace(s);
    var l := s[a..];
    var b := TrailingStart(l);
    assert b > 0 ==> l[0] == s[a];
    assert b == 0 ==> a == |s|;
    l[..b]
  }

  /** Stripping text whose two ends are not whitespace changes nothing. */
  lemma {:induction false} StripUnchanged(s: string)
    requires s != [] && !IsSpace(s[0]) && !IsSpace(s[|s| - 1])
    ensures Strip(s) == s
  {
  }

  /** Stripping text followed by a newline gives back the text, when its ends are
      not whitespace. */
  lemma {:induction false} StripDropsNewline(s: string)
    requires s != [] && !IsSpace(s[0]) && !IsSpace(s[|s| - 1])
    ensures Strip(s + "\n") == s
  {
    var t := s + "\n";
    assert LeadingSpace(t) == 0;
    assert t[..|t| - 1] == s;
    assert TrailingStart(s) == |s|;
    assert TrailingStart(t) == |s|;
  }

  /** `sub` occurs in `s` starting at index `i`. */
  predicate IsAt(s: string, sub: string, i: int) {
    0 <= i && i + |sub| <= |s| && s[i..i + |sub|] == sub
  }

  /** An occurrence in a suffix is an occurrence in the whole text, shifted. */
  lemma {:induction false} IsAtShift(s: string, sub: string, cut: nat, j: nat)
    requires cut <= |s|
    ensures IsAt(s[cut..], sub, j) <==> IsAt(s, sub, cut + j)
  {
    if cut + j + |sub| <= |s| {
      assert s[cut..][j..j + |sub|] == s[cut + j..cut + j + |sub|];
    }
  }

  /** Python's `sub in s` for strings. */
  predicate Contains(s: string, sub: string) {
    exists i :: 0 <= i <= |s| && IsAt(s, sub, i)
  }

  /** `s.startswith(p)`. */
  predicate StartsWith(s: string, p: string) {
    |p| <= |s| && s[..|p|] == p
  }

  /** `s.endswith(p)`. */
  predicate EndsWith(s: string, p: string) {
    |p| <= |s| && s[|s| - |p|..] == p
  }

  /** The first occurrence of `sub` in `s` at or after `from` (`re.search` of a
      literal, or `str.find`). */
  function FindFrom(s: string, sub: string, from: nat): (r: Option<nat>)
    ensures r.Some? ==> from <= r.value && IsAt(s, sub, r.value)
    ensures r.Some? ==> forall k :: from <= k < r.value ==> !IsAt(s, sub, k)
    ensures r.None? ==> forall k :: from <= k ==> !IsAt(s, sub, k)
    decreases |s| + 1 - from
  {
    if from > |s| then None
    else if IsAt(s, sub, from) then Some(from)
    else FindFrom(s, sub, from + 1)
  }

  /** Index of the first `c` in `s`, or `|s|` when there is none. */
  function IndexOf(s: string, c: char): (i: nat)
    ensures i <= |s|
    ensures c !in s[..i]
    ensures i < |s| ==> s[i] == c
  {
    if |s| == 0 then 0
    else if s[0] == c then 0
    else
      var j := IndexOf(s[1..], c);
      assert s[1..][..j] == s[1..j + 1];
      assert s[..j + 1] == [s[0]] + s[1..j + 1];
      1 + j
  }

  /** The first `c` in text that has no `c` before a `c` is that one. */
  lemma {:induction false} IndexOfPrefix(p: string, q: string, c: char)
    requires c !in p
    ensures IndexOf(p + [c] + q, c) == |p|
    decreases |p|
  {
    if |p| > 0 {
      assert (p + [c] + q)[1..] == p[1..] + [c] + q;
      IndexOfPrefix(p[1..], q, c);
    }
  }

  /** `sep.join(ls)` for a one-character separator. */
  function Join(ls: seq<string>, sep: char): string {
    if |ls| == 0 then ""
    else if |ls| == 1 then ls[0]
    else ls[0] + [sep] + Join(ls[1..], sep)
  }

  /** `s.split(sep)` for a one-character separator: never empty, no piece
      contains the separator, and joining the pieces gives back `s`. */
  function Split(s: string, sep: char): (r: seq<string>)
    ensures |r| >= 1
    ensures forall i :: 0 <= i < |r| ==> sep !in r[i]
    ensures Join(r, sep) == s
    decreases |s|
  {
    var i := IndexOf(s, sep);
    if i == |s| then
      assert s[..i] == s;
      [s]
    else
      var rest := Split(s[i + 1..], sep);
      var r := [s[..i]] + rest;
      assert r[1..] == rest;
      assert s == s[..i] + [sep] + s[i + 1..];
      r
  }

  /** Joining and splitting again gives back pieces that contain no separator. */
  lemma {:induction false} SplitJoin(ls: seq<string>, sep: char)
    requires |ls| >= 1
    requires forall i :: 0 <= i < |ls| ==> sep !in ls[i]
    ensures Split(Join(ls, sep), sep) == ls
    decreases |ls|
  {
    if |ls| == 1 {
      assert IndexOf(ls[0], sep) == |ls[0]|;
    } else {
      SplitCons(ls[0], Join(ls[1..], sep), sep);
      SplitJoin(ls[1..], sep);
      assert ls == [ls[0]] + ls[1..];
    }
  }

  /** Splitting a piece without separator, a separator and the rest gives
      the piece and then the pieces of the rest. */
  lemma {:induction false} SplitCons(a: string, rest: string, sep: char)
    requires sep !in a
    ensures Split(a + [sep] + rest, sep) == [a] + Split(rest, sep)
  {
    var s := a + [sep] + rest;
    IndexOfPrefix(a, rest, sep);
    assert s[..|a|] == a;
    assert s[|a| + 1..] == rest;
  }

  /** Joining two non-empty runs of pieces puts one separator between them. */
  lemma {:induction false} JoinAppend(a: seq<string>, b: seq<string>, sep: char)
    requires |a| >= 1 && |b| >= 1
    ensures Join(a + b, sep) == Join(a, sep) + [sep] + Join(b, sep)
    decreases |a|
  {
    if |a| == 1 {
      assert (a + b)[1..] == b;
    } else {
      assert (a + b)[1..] == a[1..] + b;
      JoinAppend(a[1..], b, sep);
    }
  }

  /** Every piece of a join appears in the joined text. */
  lemma {:induction false} JoinContains(ls: seq<string>, k: nat, sep: char)
    requires k < |ls|
    ensures Contains(Join(ls, sep), ls[k])
  {
    var pre := if k == 0 then "" else Join(ls[..k], sep) + [sep];
    var post := if k == |ls| - 1 then "" else [sep] + Join(ls[k + 1..], sep);
    JoinAround(ls, k, sep);
    assert Join(ls, sep) == pre + ls[k] + post;
    assert IsAt(Join(ls, sep), ls[k], |pre|) by {
      assert (pre + ls[k] + post)[|pre|..|pre| + |ls[k]|] == ls[k];
    }
  }

  /** The joined text around piece `k`. */
  lemma {:induction false} JoinAround(ls: seq<string>, k: nat, sep: char)
    requires k < |ls|
    ensures Join(ls, sep)
         == (if k == 0 then "" else Join(ls[..k], sep) + [sep])
          + ls[k]
          + (if k == |ls| - 1 then "" else [sep] + Join(ls[k + 1..], sep))
  {
    if k > 0 && k < |ls| - 1 {
      assert ls == ls[..k] + ([ls[k]] + ls[k + 1..]);
      JoinAppend(ls[..k], [ls[k]] + ls[k + 1..], sep);
      assert ([ls[k]] + ls[k + 1..])[1..] == ls[k + 1..];
    } else if k > 0 {
      assert ls == ls[..k] + [ls[k]];
      JoinAppend(ls[..k], [ls[k]], sep);
    } else if |ls| > 1 {
      assert ls[1..] == ls[k + 1..];
    }
  }

  predicate IsDigit(c: char) {
    '0' <= c <= '9'
  }

  predicate AllDigits(s: string) {
    forall i :: 0 <= i < |s| ==> IsDigit(s[i])
  }

  /** `int(s)` for a string of ASCII decimal digits. */
  function DigitsValue(s: string): nat
    requires AllDigits(s)
  {
    if |s| == 0 then 0
    else DigitsValue(s[..|s| - 1]) * 10 + (s[|s| - 1] as int - '0' as int)
  }

  /** `str(n)` for a natural number: decimal digits without leading zeros
      that read back as `n`. */
  function NatToString(n: nat): (r: string)
    ensures |r| >= 1 && AllDigits(r)
    ensures DigitsValue(r) == n
    ensures r[0] == '0' ==> n == 0
  {
    if n < 10 then [('0' as int + n) as char]
    else
      var r := NatToString(n / 10) + [('0' as int + n % 10) as char];
      assert r[..|r| - 1] == NatToString(n / 10);
      r
  }

  /** ASCII lower-casing of one character. */
  function LowerChar(c: char): char {
    if 'A' <= c <= 'Z' then (c as int + 32) as char else c
  }

  /** `s.lower()` on the ASCII letters; every other code point is kept. */
  function AsciiLower(s: string): (r: string)
    ensures |r| == |s|
    ensures forall i :: 0 <= i < |s| ==> r[i] == LowerChar(s[i])
  {
    seq(|s|, i requires 0 <= i < |s| => LowerChar(s[i]))
  }
}

=== FILE: version_manager.dfy ===
/** Semantic versioning of a project (version_manager.py): reading the
    VERSION file, writing it, the major/minor/patch bump rule, and the bump
    operation that ties these to the changelog. File contents and the date
    are passed in as values; the written texts are returned. */
module VersionManager {

  import opened Wrappers
  import opened Text
  import Changelog

  /** A (major, minor, patch) triple. */
  datatype Version = Version(major: nat, minor: nat, patch: nat)

  /** The version assumed when the VERSION file is missing, unreadable or malformed. */
  const Initial: Version := Version(0, 1, 0)

  /** Lexicographic order on (major, minor, patch). */
  predicate Less(a: Version, b: Version) {
    || a.major < b.major
    || (a.major == b.major && a.minor < b.minor)
    || (a.major == b.major && a.minor == b.minor && a.patch < b.patch)
  }

  /** What reading a file gives: it is missing, it exists but cannot be
      read or decoded, or its text. */
  datatype FileState = Missing | Unreadable | Present(text: string)

  /** `t` is the text `a.b.c` with three non-empty runs of decimal digits. */
  predicate IsTriple(t: string, a: string, b: string, c: string) {
    && a != [] && b != [] && c != []
    && AllDigits(a) && AllDigits(b) && AllDigits(c)
    && t == a + "." + b + "." + c
  }

  /** The match of `^(\d+)\.(\d+)\.(\d+)$` against already stripped text,
      converting the three groups with `int`. A match means the text has the
      three-part shape and the version holds the values of its parts. */
  function MatchTriple(t: string): (r: Option<Version>)
    ensures r.Some? ==> var p := Split(t, '.');
      && |p| == 3
      && IsTriple(t, p[0], p[1], p[2])
      && r.value == Version(DigitsValue(p[0]), DigitsValue(p[1]), DigitsValue(p[2]))
  {
    var p := Split(t, '.');
    if |p| == 3 && p[0] != [] && p[1] != [] && p[2] != []
       && AllDigits(p[0]) && AllDigits(p[1]) && AllDigits(p[2])
    then
      JoinThree(p);
      Some(Version(DigitsValue(p[0]), DigitsValue(p[1]), DigitsValue(p[2])))
    else None
  }

  /** Every text of the three-part shape is matched, with the values of its parts. */
  lemma {:induction false} MatchTripleAccepts(t: string, a: string, b: string, c: string)
    requires IsTriple(t, a, b, c)
    ensures MatchTriple(t) == Some(Version(DigitsValue(a), DigitsValue(b), DigitsValue(c)))
  {
    NoDotInDigits(a);
    NoDotInDigits(b);
    NoDotInDigits(c);
    var ls := [a, b, c];
    JoinThree(ls);
    SplitJoin(ls, '.');
  }

  /** Three parts joined with dots. */
  lemma {:induction false} JoinThree(p: seq<string>)
    requires |p| == 3
    ensures Join(p, '.') == p[0] + "." + p[1] + "." + p[2]
  {
    assert p[1..][1..] == [p[2]];
    assert Join(p[1..], '.') == p[1] + "." + p[2];
  }

  lemma {:induction false} NoDotInDigits(s: string)
    requires AllDigits(s)
    ensures '.' !in s
  {
    forall i | 0 <= i < |s|
      ensures s[i] != '.'
    {
      assert IsDigit(s[i]);
    }
  }

  /** `get_current_version`: the version in the VERSION file, or (0, 1, 0). */
  function GetCurrentVersion(f: FileState): (v: Version)
    ensures !f.Present? ==> v == Initial
    ensures v != Initial ==> f.Present? && MatchTriple(Strip(f.text)) == Some(v)
  {
    match f
    case Missing => Initial
    case Unreadable => Initial
    case Present(text) =>
      match MatchTriple(Strip(text))
      case Some(v) => v
      case None => Initial
  }

  /** A VERSION file whose stripped text is `a.b.c` reads as that version;
      any other text reads as (0, 1, 0). */
  lemma {:induction false} GetCurrentVersionSpec(text: string)
    ensures forall a, b, c :: (IsTriple(Strip(text), a, b, c)
      ==> GetCurrentVersion(Present(text)) == Version(DigitsValue(a), DigitsValue(b), DigitsValue(c)))
    ensures (forall a, b, c :: !IsTriple(Strip(text), a, b, c))
      ==> GetCurrentVersion(Present(text)) == Initial
  {
    forall a, b, c | IsTriple(Strip(text), a, b, c)
      ensures GetCurrentVersion(Present(text)) == Version(DigitsValue(a), DigitsValue(b), DigitsValue(c))
    {
      MatchTripleAccepts(Strip(text), a, b, c);
    }
    var m := MatchTriple(Strip(text));
    if m.Some? {
      var p := Split(Strip(text), '.');
      assert IsTriple(Strip(text), p[0], p[1], p[2]);
    }
  }

  /** `"{major}.{minor}.{patch}"`. */
  function FormatVersion(v: Version): string {
    NatToString(v.major) + "." + NatToString(v.minor) + "." + NatToString(v.patch)
  }

  /** The text `set_version` writes to the VERSION file. */
  function VersionFileText(v: Version): string {
    FormatVersion(v) + "\n"
  }

  /** Round trip: what `set_version` writes, `get_current_version` reads back. */
  lemma {:induction false} VersionFileRoundTrip(v: Version)
    ensures GetCurrentVersion(Present(VersionFileText(v))) == v
  {
    var a, b, c := NatToString(v.major), NatToString(v.minor), NatToString(v.patch);
    var t := FormatVersion(v);
    assert t == a + "." + b + "." + c;
    assert t[0] == a[0] && IsDigit(a[0]);
    assert t[|t| - 1] == c[|c| - 1] && IsDigit(c[|c| - 1]);
    StripDropsNewline(t);
    MatchTripleAccepts(t, a, b, c);
  }

  /** The three kinds of bump. */
  datatype BumpKind = Major | Minor | Patch

  /** Why a bump fails: an unknown bump type, refused before anything is
      written, or a changelog that exists but cannot be read, which raises
      after the VERSION file already holds `written`. */
  datatype BumpError = InvalidBumpType(given: string) | ChangelogUnreadable(written: string)

  /** The bump type named on the command line; anything but the three names is
      refused. */
  function ParseBumpKind(t: string): (r: Result<BumpKind, BumpError>)
    ensures r.Err? <==> t != "major" && t != "minor" && t != "patch"
    ensures r.Ok? ==> (r.value == Major <==> t == "major")
    ensures r.Ok? ==> (r.value == Minor <==> t == "minor")
    ensures r.Ok? ==> (r.value == Patch <==> t == "patch")
  {
    if t == "major" then Ok(Major)
    else if t == "minor" then Ok(Minor)
    else if t == "patch" then Ok(Patch)
    else Err(InvalidBumpType(t))
  }

  /** The bump rule. A patch bump gives the next version in order; a minor bump
      gives the least version of the same major with a greater minor; a major
      bump gives the least version with a greater major. Every bump gives a
      strictly greater version. */
  function Bump(v: Version, k: BumpKind): (r: Version)
    ensures Less(v, r)
    ensures k == Patch ==> forall w: Version :: Less(v, w) ==> !Less(w, r)
    ensures k == Minor ==> r.major == v.major && r.minor > v.minor
    ensures k == Minor ==> forall w: Version :: w.major == v.major && w.minor > v.minor ==> !Less(w, r)
    ensures k == Major ==> r.major > v.major
    ensures k == Major ==> forall w: Version :: w.major > v.major ==> !Less(w, r)
  {
    match k
    case Major => Version(v.major + 1, 0, 0)
    case Minor => Version(v.major, v.minor + 1, 0)
    case Patch => Version(v.major, v.minor, v.patch + 1)
  }

  /** What a successful bump writes: the new VERSION text and, when an entry
      was given, the new changelog text. */
  datatype BumpOutcome = BumpOutcome(version: Version, versionText: string, changelog: Option<string>)

  /** The changelog text `update_changelog` starts from: `None` when there is
      no file. */
  function ChangelogText(f: FileState): Option<string> {
    if f.Present? then Some(f.text) else None
  }

  /** `bump_version`: read the current version, bump it, write the VERSION
      file, and update the changelog when a non-empty entry is given. An
      unknown bump type fails before anything is written; an existing
      changelog that cannot be read fails after the VERSION file is written.
      `changelog` is the state of the changelog file and `date` is today's
      date as `YYYY-MM-DD`. */
  function BumpVersion(f: FileState, bumpType: string, entry: Option<string>,
                       changelog: FileState, date: string): (r: Result<BumpOutcome, BumpError>)
    ensures r.Err? && r.error.InvalidBumpType? <==> bumpType != "major" && bumpType != "minor" && bumpType != "patch"
    ensures r.Err? && r.error.ChangelogUnreadable? <==>
              ParseBumpKind(bumpType).Ok? && entry.Some? && entry.value != "" && changelog.Unreadable?
    ensures r.Err? && r.error.ChangelogUnreadable? ==>
              r.error.written == VersionFileText(Bump(GetCurrentVersion(f), ParseBumpKind(bumpType).value))
    ensures r.Ok? ==> Less(GetCurrentVersion(f), r.value.version)
    ensures r.Ok? ==> GetCurrentVersion(Present(r.value.versionText)) == r.value.version
    ensures r.Ok? ==> r.value.versionText == VersionFileText(r.value.version)
    ensures r.Ok? ==> (r.value.changelog.Some? <==> entry.Some? && entry.value != "")
    ensures r.Ok? ==> r.value.version == Bump(GetCurrentVersion(f), ParseBumpKind(bumpType).value)
    ensures r.Ok? && r.value.changelog.Some? ==>
              r.value.changelog.value
              == Changelog.UpdateChangelog(ChangelogText(changelog), FormatVersion(r.value.version), date, entry.value)
  {
    match ParseBumpKind(bumpType)
    case Err(e) => Err(e)
    case Ok(k) =>
      var v := Bump(GetCurrentVersion(f), k);
      VersionFileRoundTrip(v);
      if entry.Some? && entry.value != "" then
        if changelog.Unreadable? then Err(ChangelogUnreadable(VersionFileText(v)))
        else
          var log := Changelog.UpdateChangelog(ChangelogText(changelog), FormatVersion(v), date, entry.value);
          Ok(BumpOutcome(v, VersionFileText(v), Some(log)))
      else Ok(BumpOutcome(v, VersionFileText(v), None))
  }

  /** An unknown bump type changes neither the VERSION file nor the changelog: it
      produces no texts at all, whatever the files hold. */
  lemma {:induction false} InvalidBumpWritesNothing(f: FileState, bumpType: string, entry: Option<string>,
                                 changelog: FileState, date: string)
    requires bumpType != "major" && bumpType != "minor" && bumpType != "patch"
    ensures BumpVersion(f, bumpType, entry, changelog, date) == Err(InvalidBumpType(bumpType))
  {
  }
}

=== FILE: workflow_validator.dfy ===
/** The workflow checks of test_hooks.py: the structure check of a workflow
    file, the trigger check, the action-reference check, and the summary of
    a validation run. The file text and the YAML loader are parameters, and
    so are the existence of local actions and the count of secret-usage
    warnings. Messages are constructors naming the source's message
    templates. */
module WorkflowValidator {

  import opened Wrappers
  import opened Text
  import opened PyValue

  /** `yaml.safe_load`: the loaded document, or a `YAMLError`. */
  datatype Loaded = YamlError | Doc(doc: Value)

  // ------------------------------------------------------ structure check

  datatype SyntaxError =
    | FileEmpty                         // "File is empty"
    | EmptyOrInvalid                    // "YAML file is empty or invalid"
    | RootNotMapping                    // "YAML root must be a dictionary"
    | MissingKey(name: string)          // "Missing required key: {name}"
    | JobNotMapping(job: Value)         // "Job '{job}' must be a dictionary"
    | JobMissing(job: Value, key: string) // "Job '{job}' missing '{key}'"
    | YamlSyntax                        // "YAML syntax error: ..."
    | Unexpected                        // "Unexpected error: ..."

  datatype SyntaxResult = SyntaxResult(valid: bool, errors: seq<SyntaxError>)

  /** The required keys, in the order they are checked. */
  const RequiredKeys: seq<string> := ["name", "on", "jobs"]

  /** The keys that satisfy a required key: the loader reads a bare `on` as
      `True`, so `on` is satisfied by either. */
  function Variants(name: string): seq<Value> {
    if name == "on" then [VBool(true), VStr("on")] else [VStr(name)]
  }

  predicate Present(es: seq<Entry>, name: string) {
    exists v :: v in Variants(name) && HasKey(es, v)
  }

  /** The errors for the required keys among `names` that are missing. */
  function MissingKeys(es: seq<Entry>, names: seq<string>): (r: seq<SyntaxError>)
    ensures |r| <= |names|
    ensures forall e :: e in r ==> e.MissingKey? && e.name in names && !Present(es, e.name)
    ensures forall n :: n in names && !Present(es, n) ==> MissingKey(n) in r
  {
    if names == [] then []
    else
      var rest := MissingKeys(es, names[1..]);
      assert forall n :: n in names[1..] ==> n in names;
      assert forall n :: n in names ==> n == names[0] || n in names[1..];
      if Present(es, names[0]) then rest else [MissingKey(names[0])] + rest
  }

  /** A list with no repeated element. */
  predicate Distinct<T(==)>(xs: seq<T>) {
    forall i, j :: 0 <= i < j < |xs| ==> xs[i] != xs[j]
  }

  /** Each missing key is reported once. */
  lemma {:induction false} MissingKeysDistinct(es: seq<Entry>, names: seq<string>)
    requires Distinct(names)
    ensures Distinct(MissingKeys(es, names))
    decreases |names|
  {
    if names != [] {
      var rest := MissingKeys(es, names[1..]);
      assert Distinct(names[1..]) by {
        forall i, j | 0 <= i < j < |names[1..]|
          ensures names[1..][i] != names[1..][j]
        {
          assert names[1..][i] == names[i + 1] && names[1..][j] == names[j + 1];
        }
      }
      MissingKeysDistinct(es, names[1..]);
      if !Present(es, names[0]) {
        assert names[0] !in names[1..] by {
          forall k | 0 <= k < |names[1..]|
            ensures names[1..][k] != names[0]
          {
            assert names[1..][k] == names[k + 1];
          }
        }
        assert MissingKey(names[0]) !in rest;
        var r := [MissingKey(names[0])] + rest;
        forall i, j | 0 <= i < j < |r|
          ensures r[i] != r[j]
        {
          if i == 0 {
            assert r[j] == rest[j - 1] && r[j] in rest;
          } else {
            assert r[i] == rest[i - 1] && r[j] == rest[j - 1];
          }
        }
      }
    }
  }

  /** The errors for the jobs of a `jobs` mapping, job by job. */
  function JobErrors(jobs: seq<Entry>): seq<SyntaxError> {
    if jobs == [] then []
    else
      var name := jobs[0].key;
      var here :=
        match jobs[0].val
        case VMap(job) =>
          (if HasKey(job, VStr("runs-on")) then [] else [JobMissing(name, "runs-on")])
          + (if HasKey(job, VStr("steps")) then [] else [JobMissing(name, "steps")])
        case _ => [JobNotMapping(name)];
      here + JobErrors(jobs[1..])
  }

  /** A job with what a runner needs. */
  predicate JobWellFormed(job: Value) {
    job.VMap? && HasKey(job.entries, VStr("runs-on")) && HasKey(job.entries, VStr("steps"))
  }

  /** The job errors are empty exactly when every job is well formed; a job
      that is not a mapping is reported once. */
  lemma {:induction false} JobErrorsEmpty(jobs: seq<Entry>)
    ensures JobErrors(jobs) == [] <==> forall i :: 0 <= i < |jobs| ==> JobWellFormed(jobs[i].val)
    decreases |jobs|
  {
    if jobs != [] {
      JobErrorsEmpty(jobs[1..]);
      assert forall i :: 1 <= i < |jobs| ==> jobs[i] == jobs[1..][i - 1];
    }
  }

  /** `validate_workflow_syntax`. The result is valid exactly when no error
      was found; empty text gives the one error `File is empty`. */
  function ValidateWorkflowSyntax(read: FileRead, load: string -> Loaded): (r: SyntaxResult)
    ensures r.valid <==> r.errors == []
    ensures read.Read? && AllSpace(read.text) ==> r == SyntaxResult(false, [FileEmpty])
    ensures read.Unreadable? ==> r == SyntaxResult(false, [Unexpected])
  {
    match read
    case Unreadable => SyntaxResult(false, [Unexpected])
    case Read(text) =>
      if AllSpace(text) then SyntaxResult(false, [FileEmpty])
      else
        match load(text)
        case YamlError => SyntaxResult(false, [YamlSyntax])
        case Doc(VNone) => SyntaxResult(false, [EmptyOrInvalid])
        case Doc(VMap(es)) => CheckMapping(es)
        case Doc(_) => SyntaxResult(false, [RootNotMapping])
  }

  /** The checks of a document that loaded into a mapping: the missing
      required keys, then the errors of each job. A `jobs` value that is not
      a mapping makes the job loop raise. */
  function CheckMapping(es: seq<Entry>): (r: SyntaxResult)
    ensures r.valid <==> r.errors == []
    ensures var missing := MissingKeys(es, RequiredKeys);
      |missing| <= |r.errors| && r.errors[..|missing|] == missing
  {
    var missing := MissingKeys(es, RequiredKeys);
    match Lookup(es, VStr("jobs"))
    case None => SyntaxResult(missing == [], missing)
    case Some(VMap(jobs)) =>
      var errors := missing + JobErrors(jobs);
      SyntaxResult(errors == [], errors)
    case Some(_) => SyntaxResult(false, missing + [Unexpected])
  }

  /** A workflow document with every required key and well-formed jobs. */
  predicate WellFormedWorkflow(doc: Value) {
    && doc.VMap?
    && (forall n :: n in RequiredKeys ==> Present(doc.entries, n))
    && var jobs := Lookup(doc.entries, VStr("jobs"));
       jobs.Some? && jobs.value.VMap?
       && forall i :: 0 <= i < |jobs.value.entries| ==> JobWellFormed(jobs.value.entries[i].val)
  }

  /** A non-empty workflow file is valid exactly when it loads into a
      well-formed workflow document. */
  lemma {:induction false} ValidIffWellFormed(text: string, load: string -> Loaded)
    requires !AllSpace(text)
    ensures ValidateWorkflowSyntax(Read(text), load).valid
        <==> load(text).Doc? && WellFormedWorkflow(load(text).doc)
  {
    if load(text).Doc? && load(text).doc.VMap? {
      MappingValidIff(load(text).doc.entries);
    }
  }

  /** No missing-key error exactly when every required key is present. */
  lemma {:induction false} NoneMissing(es: seq<Entry>)
    ensures MissingKeys(es, RequiredKeys) == [] <==> forall n :: n in RequiredKeys ==> Present(es, n)
  {
    var missing := MissingKeys(es, RequiredKeys);
    if missing != [] {
      assert missing[0] in missing;
    }
  }

  /** A loaded mapping passes exactly when it is a well-formed workflow. */
  lemma {:induction false} MappingValidIff(es: seq<Entry>)
    ensures CheckMapping(es).valid <==> WellFormedWorkflow(VMap(es))
  {
    NoneMissing(es);
    assert Present(es, "jobs") <==> HasKey(es, VStr("jobs")) by {
      assert Variants("jobs") == [VStr("jobs")];
    }
    match Lookup(es, VStr("jobs"))
    case None =>
      assert "jobs" in RequiredKeys;
    case Some(v) =>
      if v.VMap? {
        JobErrorsEmpty(v.entries);
      }
  }

  /** For a loaded mapping, each missing required key gives exactly one
      error, and no other `Missing required key` error is reported. */
  lemma {:induction false} MissingKeyErrors(text: string, load: string -> Loaded, es: seq<Entry>)
    requires !AllSpace(text) && load(text) == Doc(VMap(es))
    ensures var errors := ValidateWorkflowSyntax(Read(text), load).errors;
      && (forall n :: n in RequiredKeys && !Present(es, n) ==> MissingKey(n) in errors)
      && (forall n :: MissingKey(n) in errors ==> n in RequiredKeys && !Present(es, n))
      && var k := |MissingKeys(es, RequiredKeys)|;
         errors[..k] == MissingKeys(es, RequiredKeys) && Distinct(errors[..k])
         && forall e :: e in errors[k..] ==> !e.MissingKey?
  {
    var missing := MissingKeys(es, RequiredKeys);
    var errors := ValidateWorkflowSyntax(Read(text), load).errors;
    MissingKeysDistinct(es, RequiredKeys);
    assert errors[..|missing|] == missing;
    forall e | e in errors[|missing|..]
      ensures !e.MissingKey?
    {
      match Lookup(es, VStr("jobs"))
      case None =>
      case Some(v) =>
        if v.VMap? {
          JobErrorsNoMissingKey(v.entries);
          assert errors[|missing|..] == JobErrors(v.entries);
        }
    }
    forall n | MissingKey(n) in errors
      ensures n in RequiredKeys && !Present(es, n)
    {
      var i :| 0 <= i < |errors| && errors[i] == MissingKey(n);
      if i >= |missing| {
        assert false;
      }
      assert errors[i] == missing[i];
    }
  }

  lemma {:induction false} JobErrorsNoMissingKey(jobs: seq<Entry>)
    ensures forall e :: e in JobErrors(jobs) ==> !e.MissingKey?
    decreases |jobs|
  {
    if jobs != [] {
      JobErrorsNoMissingKey(jobs[1..]);
    }
  }

  /** A job that is not a mapping gets exactly one error and nothing else;
      a mapping job gets one error for each of `runs-on` and `steps` it
      lacks. */
  lemma {:induction false} JobErrorsOfOneJob(name: Value, job: Value, rest: seq<Entry>)
    ensures var errs := JobErrors([Entry(name, job)] + rest);
      var here := |errs| - |JobErrors(rest)|;
      && errs[here..] == JobErrors(rest)
      && (!job.VMap? ==> errs[..here] == [JobNotMapping(name)])
      && (job.VMap? ==> (JobMissing(name, "runs-on") in errs[..here] <==> !HasKey(job.entries, VStr("runs-on"))))
      && (job.VMap? ==> (JobMissing(name, "steps") in errs[..here] <==> !HasKey(job.entries, VStr("steps"))))
      && (job.VMap? ==> here == (if HasKey(job.entries, VStr("runs-on")) then 0 else 1)
                             + (if HasKey(job.entries, VStr("steps")) then 0 else 1))
  {
    var jobs := [Entry(name, job)] + rest;
    assert jobs[1..] == rest;
  }

  // --------------------------------------------------------- trigger check

  datatype TriggerWarning =
    | NoPushOrPullRequest   // "No push or pull_request triggers found"
    | TriggerCheckFailed    // "Error checking triggers: ..."

  datatype TriggerResult = TriggerResult(triggers: seq<Value>, warnings: seq<TriggerWarning>)

  /** The key the triggers are under: `True` (a bare `on`) first, then the
      string `on`. */
  function TriggerKey(es: seq<Entry>): (k: Option<Value>)
    ensures k.Some? <==> Present(es, "on")
    ensures k.Some? ==> HasKey(es, k.value)
  {
    if HasKey(es, VBool(true)) then Some(VBool(true))
    else if HasKey(es, VStr("on")) then Some(VStr("on"))
    else None
  }

  /** The trigger list: a string becomes a one-element list, a list is kept,
      a mapping gives its keys, and anything else gives no triggers. */
  function NormalizeTriggers(v: Value): seq<Value> {
    match v
    case VStr(_) => [v]
    case VList(items) => items
    case VMap(es) => Keys(es)
    case _ => []
  }

  /** The trigger value names the event `name`: it is that string, a list
      holding it, or a mapping with it as a key. */
  predicate Mentions(v: Value, name: string) {
    match v
    case VStr(s) => s == name
    case VList(items) => VStr(name) in items
    case VMap(es) => exists i :: 0 <= i < |es| && es[i].key == VStr(name)
    case _ => false
  }

  /** Normalising keeps exactly the events the trigger value names. */
  lemma {:induction false} NormalizeMentions(v: Value, name: string)
    ensures Lists(NormalizeTriggers(v), VStr(name)) <==> Mentions(v, name)
  {
    match v
    case VStr(s) =>
      assert NormalizeTriggers(v)[0] == v;
    case VList(items) =>
      if VStr(name) in items {
        var i :| 0 <= i < |items| && items[i] == VStr(name);
        assert Matches(items[i], VStr(name));
      }
    case VMap(es) =>
      KeysListHasKey(es, VStr(name));
    case _ =>
  }

  /** The warning rule on a normalised trigger list. */
  function TriggerWarnings(triggers: seq<Value>): seq<TriggerWarning> {
    if Lists(triggers, VStr("push")) && Lists(triggers, VStr("pull_request")) then []
    else if !Lists(triggers, VStr("push")) && !Lists(triggers, VStr("pull_request")) then [NoPushOrPullRequest]
    else []
  }

  /** `check_workflow_triggers`. At most one warning is given. */
  function CheckWorkflowTriggers(read: FileRead, load: string -> Loaded): (r: TriggerResult)
    ensures |r.warnings| <= 1
    ensures read.Unreadable? ==> r == TriggerResult([], [TriggerCheckFailed])
    ensures read.Read? && AllSpace(read.text) ==> r == TriggerResult([], [])
  {
    match read
    case Unreadable => TriggerResult([], [TriggerCheckFailed])
    case Read(text) =>
      if AllSpace(text) then TriggerResult([], [])
      else
        match load(text)
        case YamlError => TriggerResult([], [TriggerCheckFailed])
        case Doc(VMap(es)) =>
          (match TriggerKey(es)
           case None => TriggerResult([], [])
           case Some(k) =>
             var triggers := NormalizeTriggers(Lookup(es, k).value);
             TriggerResult(triggers, TriggerWarnings(triggers)))
        case Doc(_) => TriggerResult([], [])
  }

  /** The trigger warning is given exactly when the document is a mapping
      with an `on` key whose value names neither `push` nor `pull_request`. */
  lemma {:induction false} TriggerWarningRule(text: string, load: string -> Loaded)
    requires !AllSpace(text)
    ensures NoPushOrPullRequest in CheckWorkflowTriggers(Read(text), load).warnings
        <==> && load(text).Doc? && load(text).doc.VMap?
             && var es := load(text).doc.entries;
                TriggerKey(es).Some?
                && var v := Lookup(es, TriggerKey(es).value).value;
                   !Mentions(v, "push") && !Mentions(v, "pull_request")
  {
    if load(text).Doc? && load(text).doc.VMap? {
      var es := load(text).doc.entries;
      if TriggerKey(es).Some? {
        var v := Lookup(es, TriggerKey(es).value).value;
        NormalizeMentions(v, "push");
        NormalizeMentions(v, "pull_request");
      }
    }
  }

  // ---------------------------------------------- action-reference check

  datatype ActionWarning =
    | NotPinned(ref: Value)            // "Action '{ref}' not version pinned"
    | UnstableBranch(ref: Value)       // "Action '{ref}' uses unstable branch"
    | LocalActionMissing(ref: Value)   // "Local action not found: {ref}"
    | ActionCheckFailed                // "Error validating actions: ..."

  predicate IsPinWarning(w: ActionWarning) {
    w.NotPinned? || w.UnstableBranch?
  }

  /** The number of pinning warnings in a list. */
  function PinWarnings(ws: seq<ActionWarning>): nat {
    if ws == [] then 0 else (if IsPinWarning(ws[0]) then 1 else 0) + PinWarnings(ws[1..])
  }

  lemma {:induction false} PinWarningsAppend(a: seq<ActionWarning>, b: seq<ActionWarning>)
    ensures PinWarnings(a + b) == PinWarnings(a) + PinWarnings(b)
    decreases |a|
  {
    if a == [] {
      assert a + b == b;
    } else {
      assert (a + b)[1..] == a[1..] + b;
      PinWarningsAppend(a[1..], b);
    }
  }

  /** How a reference is pinned, read from its text alone. */
  datatype Pinning = Unpinned | Branch | Pinned

  /** A reference without `@` is unpinned; one ending in `@main` or
      `@master` follows a branch; any other is pinned. */
  function PinningOf(s: string): Pinning {
    if !Contains(s, "@") then Unpinned
    else if EndsWith(s, "@main") || EndsWith(s, "@master") then Branch
    else Pinned
  }

  /** The local-action warning for a reference starting with `./`, given
      whether the path after `./` exists. */
  function LocalWarnings(s: string, localExists: string -> bool): seq<ActionWarning> {
    if StartsWith(s, "./") && !localExists(s[2..]) then [LocalActionMissing(VStr(s))] else []
  }

  /** The checks on one `uses` value: the warnings, and whether an
      exception ended the scan. `"@" not in ref` raises on a value that is
      not a string, list or mapping; `.endswith` and `.startswith` raise on
      a list or mapping. */
  function RefChecks(ref: Value, localExists: string -> bool): (r: (seq<ActionWarning>, bool))
    ensures r.1 <==> !ref.VStr?
    ensures PinWarnings(r.0) <= 1
    ensures forall w :: w in r.0 ==> !w.ActionCheckFailed? && w.ref == ref
  {
    match In("@", ref)
    case Err(_) => ([], true)
    case Ok(hasAt) =>
      if ref.VStr? then
        var pin := if !hasAt then [NotPinned(ref)]
                   else if EndsWith(ref.s, "@main") || EndsWith(ref.s, "@master") then [UnstableBranch(ref)]
                   else [];
        var local := LocalWarnings(ref.s, localExists);
        PinWarningsAppend(pin, local);
        assert PinWarnings(local) == 0;
        (pin + local, false)
      else if !hasAt then ([NotPinned(ref)], true)
      else ([], true)
  }

  /** A string reference gets at most one pinning warning, the one its
      pinning calls for, and the scan goes on. */
  lemma {:induction false} StringRefWarnings(s: string, localExists: string -> bool)
    ensures var (ws, raised) := RefChecks(VStr(s), localExists);
      && !raised
      && (NotPinned(VStr(s)) in ws <==> PinningOf(s) == Unpinned)
      && (UnstableBranch(VStr(s)) in ws <==> PinningOf(s) == Branch)
      && (LocalActionMissing(VStr(s)) in ws <==> StartsWith(s, "./") && !localExists(s[2..]))
      && PinWarnings(ws) == (if PinningOf(s) == Pinned then 0 else 1)
  {
    var (ws, raised) := RefChecks(VStr(s), localExists);
    var pin := if !Contains(s, "@") then [NotPinned(VStr(s))]
               else if EndsWith(s, "@main") || EndsWith(s, "@master") then [UnstableBranch(VStr(s))]
               else [];
    var local := LocalWarnings(s, localExists);
    assert ws == pin + local;
    PinWarningsAppend(pin, local);
    assert PinWarnings(local) == 0;
  }

  /** The state of the scan over the steps: the references seen, the
      warnings given, and whether an exception ended it. */
  datatype Scan = Scan(actions: seq<Value>, warnings: seq<ActionWarning>, raised: bool)

  /** What the scan promises: at most one pinning warning per reference
      seen, and every reference warning is about a reference seen. */
  predicate Accounted(s: Scan) {
    && PinWarnings(s.warnings) <= |s.actions|
    && forall w :: w in s.warnings && !w.ActionCheckFailed? ==> w.ref in s.actions
  }

  /** One scan followed by another, unless the first raised. */
  function Then(a: Scan, b: Scan): (r: Scan)
    requires Accounted(a) && Accounted(b)
    ensures Accounted(r)
  {
    if a.raised then a
    else
      PinWarningsAppend(a.warnings, b.warnings);
      Scan(a.actions + b.actions, a.warnings + b.warnings, b.raised)
  }

  /** The steps of one job: each step that is a mapping with `uses` adds its
      reference and that reference's warnings. */
  function ScanSteps(steps: seq<Value>, localExists: string -> bool): (r: Scan)
    ensures Accounted(r)
  {
    if steps == [] then Scan([], [], false)
    else
      var step := steps[0];
      var here :=
        if step.VMap? && HasKey(step.entries, VStr("uses")) then
          var ref := Lookup(step.entries, VStr("uses")).value;
          var (ws, raised) := RefChecks(ref, localExists);
          Scan([ref], ws, raised)
        else Scan([], [], false);
      Then(here, ScanSteps(steps[1..], localExists))
  }

  /** One job: `"steps" in job` (which raises on a job that is neither a
      string, a list nor a mapping), then `job["steps"]` and the iteration
      over it. */
  function ScanJob(job: Value, localExists: string -> bool): (r: Scan)
    ensures Accounted(r)
  {
    match In("steps", job)
    case Err(_) => Scan([], [], true)
    case Ok(false) => Scan([], [], false)
    case Ok(true) =>
      match Index(job, "steps")
      case Err(_) => Scan([], [], true)
      case Ok(steps) =>
        match Iterate(steps)
        case Err(_) => Scan([], [], true)
        case Ok(items) => ScanSteps(items, localExists)
  }

  function ScanJobs(jobs: seq<Entry>, localExists: string -> bool): (r: Scan)
    ensures Accounted(r)
  {
    if jobs == [] then Scan([], [], false)
    else Then(ScanJob(jobs[0].val, localExists), ScanJobs(jobs[1..], localExists))
  }

  datatype ActionResult = ActionResult(actions: seq<Value>, warnings: seq<ActionWarning>)

  /** The scan of a loaded mapping: nothing without `jobs`, an exception when
      `jobs` is not a mapping, and otherwise the scan of its jobs, with one
      `Error validating actions` warning when an exception ended it. */
  function ScanWorkflow(es: seq<Entry>, localExists: string -> bool): (r: ActionResult)
    ensures PinWarnings(r.warnings) <= |r.actions|
    ensures forall w :: w in r.warnings && !w.ActionCheckFailed? ==> w.ref in r.actions
  {
    match Lookup(es, VStr("jobs"))
    case None => ActionResult([], [])
    case Some(VMap(jobs)) =>
      var s := ScanJobs(jobs, localExists);
      var failed := if s.raised then [ActionCheckFailed] else [];
      PinWarningsAppend(s.warnings, failed);
      assert PinWarnings(failed) == 0;
      ActionResult(s.actions, s.warnings + failed)
    case Some(_) => ActionResult([], [ActionCheckFailed])
  }

  /** `validate_action_references`. An exception ends the scan and adds one
      `Error validating actions` warning to what was found before it. */
  function ValidateActionReferences(read: FileRead, load: string -> Loaded,
                                    localExists: string -> bool): (r: ActionResult)
    ensures PinWarnings(r.warnings) <= |r.actions|
    ensures forall w :: w in r.warnings && !w.ActionCheckFailed? ==> w.ref in r.actions
    ensures read.Unreadable? ==> r == ActionResult([], [ActionCheckFailed])
    ensures read.Read? && AllSpace(read.text) ==> r == ActionResult([], [])
  {
    match read
    case Unreadable => ActionResult([], [ActionCheckFailed])
    case Read(text) =>
      if AllSpace(text) then ActionResult([], [])
      else
        match load(text)
        case YamlError => ActionResult([], [ActionCheckFailed])
        case Doc(VMap(es)) =>
          ScanWorkflow(es, localExists)
        case Doc(_) => ActionResult([], [])
  }

  /** A workflow whose jobs are mappings, each with a list of steps whose
      `uses` values are strings, is scanned without an exception, and each
      step reference's pinning warnings are those its text calls for. */
  lemma {:induction false} StringStepsScan(steps: seq<Value>, localExists: string -> bool)
    requires StringUses(steps)
    ensures !ScanSteps(steps, localExists).raised
    ensures forall w :: w in ScanSteps(steps, localExists).warnings ==> !w.ActionCheckFailed?
    decreases |steps|
  {
    if steps != [] {
      var step := steps[0];
      if step.VMap? && HasKey(step.entries, VStr("uses")) {
        StringRefWarnings(Lookup(step.entries, VStr("uses")).value.s, localExists);
      }
      assert forall i :: 1 <= i < |steps| ==> steps[1..][i - 1] == steps[i];
      StringStepsScan(steps[1..], localExists);
    }
  }

  /** The step is a mapping with a `uses` key. */
  predicate HasUses(step: Value) {
    step.VMap? && HasKey(step.entries, VStr("uses"))
  }

  /** `step["uses"]`. */
  function UsesOf(step: Value): Value
    requires HasUses(step)
  {
    Lookup(step.entries, VStr("uses")).value
  }

  /** Every step with `uses` has a string there. */
  predicate StringUses(steps: seq<Value>) {
    forall i :: 0 <= i < |steps| && HasUses(steps[i]) ==> UsesOf(steps[i]).VStr?
  }

  /** A string reference is among the actions found, with every warning its
      text calls for: not pinned, unstable branch, missing local action. */
  predicate Reported(ref: Value, actions: seq<Value>, warnings: seq<ActionWarning>,
                     localExists: string -> bool) {
    && ref.VStr?
    && ref in actions
    && (PinningOf(ref.s) == Unpinned ==> NotPinned(ref) in warnings)
    && (PinningOf(ref.s) == Branch ==> UnstableBranch(ref) in warnings)
    && (StartsWith(ref.s, "./") && !localExists(ref.s[2..]) ==> LocalActionMissing(ref) in warnings)
  }

  /** The reference of every step with `uses` is reported. */
  predicate StepsReported(steps: seq<Value>, actions: seq<Value>, warnings: seq<ActionWarning>,
                          localExists: string -> bool) {
    forall i :: 0 <= i < |steps| && HasUses(steps[i]) ==> Reported(UsesOf(steps[i]), actions, warnings, localExists)
  }

  /** Reports stay reported when more actions and warnings are found around them. */
  lemma StepsReportedGrows(steps: seq<Value>, a: seq<Value>, w: seq<ActionWarning>,
                           a2: seq<Value>, w2: seq<ActionWarning>, localExists: string -> bool)
    requires StepsReported(steps, a, w, localExists)
    requires forall x :: x in a ==> x in a2
    requires forall x :: x in w ==> x in w2
    ensures StepsReported(steps, a2, w2, localExists)
  {
  }

  /** Nothing is missed: when every `uses` value is a string, the scan of
      the steps lists the reference of every step with `uses` and gives each
      the warnings its text calls for. */
  lemma {:induction false} ScanStepsComplete(steps: seq<Value>, localExists: string -> bool)
    requires StringUses(steps)
    ensures var r := ScanSteps(steps, localExists); StepsReported(steps, r.actions, r.warnings, localExists)
    decreases |steps|
  {
    if steps != [] {
      var r := ScanSteps(steps, localExists);
      var rest := ScanSteps(steps[1..], localExists);
      assert forall i :: 1 <= i < |steps| ==> steps[1..][i - 1] == steps[i];
      ScanStepsComplete(steps[1..], localExists);
      var step := steps[0];
      if HasUses(step) {
        var ref := UsesOf(step);
        StringRefWarnings(ref.s, localExists);
        var (ws, raised) := RefChecks(ref, localExists);
        assert r.actions == [ref] + rest.actions;
        assert r.warnings == ws + rest.warnings;
        assert Reported(ref, r.actions, r.warnings, localExists);
      } else {
        assert r.actions == rest.actions && r.warnings == rest.warnings;
      }
      StepsReportedGrows(steps[1..], rest.actions, rest.warnings, r.actions, r.warnings, localExists);
      forall i | 0 <= i < |steps| && HasUses(steps[i])
        ensures Reported(UsesOf(steps[i]), r.actions, r.warnings, localExists)
      {
        if i > 0 {
          assert steps[i] == steps[1..][i - 1];
        }
      }
    }
  }

  /** The job is a mapping whose `steps` is a list of steps with string
      `uses` values. */
  predicate StepsJob(job: Value) {
    && job.VMap?
    && HasKey(job.entries, VStr("steps"))
    && Lookup(job.entries, VStr("steps")).value.VList?
    && StringUses(Lookup(job.entries, VStr("steps")).value.items)
  }

  /** `job["steps"]` of such a job. */
  function JobSteps(job: Value): seq<Value>
    requires StepsJob(job)
  {
    Lookup(job.entries, VStr("steps")).value.items
  }

  /** Every job of the `jobs` mapping is such a job. */
  predicate StepsJobs(jobs: seq<Entry>) {
    forall j :: 0 <= j < |jobs| ==> StepsJob(jobs[j].val)
  }

  /** The same for the steps of every job. */
  lemma JobsReportedGrows(jobs: seq<Entry>, a: seq<Value>, w: seq<ActionWarning>,
                          a2: seq<Value>, w2: seq<ActionWarning>, localExists: string -> bool)
    requires StepsJobs(jobs)
    requires forall j :: 0 <= j < |jobs| ==> StepsReported(JobSteps(jobs[j].val), a, w, localExists)
    requires forall x :: x in a ==> x in a2
    requires forall x :: x in w ==> x in w2
    ensures forall j :: 0 <= j < |jobs| ==> StepsReported(JobSteps(jobs[j].val), a2, w2, localExists)
  {
  }

  /** One such job is scanned as its list of steps: without an exception or
      error warning, and with every step reference reported. */
  lemma {:induction false} StepsJobScan(job: Value, localExists: string -> bool)
    requires StepsJob(job)
    ensures ScanJob(job, localExists) == ScanSteps(JobSteps(job), localExists)
    ensures !ScanJob(job, localExists).raised
    ensures ActionCheckFailed !in ScanJob(job, localExists).warnings
    ensures var r := ScanJob(job, localExists); StepsReported(JobSteps(job), r.actions, r.warnings, localExists)
  {
    StringStepsScan(JobSteps(job), localExists);
    ScanStepsComplete(JobSteps(job), localExists);
  }

  /** The steps of every job are reported when those of the first job and
      those of every later job are. */
  lemma JobsReportedCons(jobs: seq<Entry>, a: seq<Value>, w: seq<ActionWarning>, localExists: string -> bool)
    requires jobs != [] && StepsJobs(jobs)
    requires StepsReported(JobSteps(jobs[0].val), a, w, localExists)
    requires StepsJobs(jobs[1..])
    requires forall j :: 0 <= j < |jobs[1..]| ==> StepsReported(JobSteps(jobs[1..][j].val), a, w, localExists)
    ensures forall j :: 0 <= j < |jobs| ==> StepsReported(JobSteps(jobs[j].val), a, w, localExists)
  {
  }

  lemma StepsJobsTail(jobs: seq<Entry>)
    requires jobs != [] && StepsJobs(jobs)
    ensures StepsJobs(jobs[1..])
  {
  }

  /** The scan of jobs whose first job raised nothing joins that job's scan
      to the scan of the rest. */
  lemma ScanJobsUnfold(jobs: seq<Entry>, localExists: string -> bool)
    requires jobs != [] && !ScanJob(jobs[0].val, localExists).raised
    ensures var here, rest := ScanJob(jobs[0].val, localExists), ScanJobs(jobs[1..], localExists);
      ScanJobs(jobs, localExists) == Scan(here.actions + rest.actions, here.warnings + rest.warnings, rest.raised)
  {
  }

  /** Nothing is missed across jobs: the scan of jobs that are mappings with
      lists of steps whose `uses` values are strings raises nothing and
      reports the reference of every step of every job. */
  lemma {:induction false} ScanJobsComplete(jobs: seq<Entry>, localExists: string -> bool)
    requires StepsJobs(jobs)
    ensures !ScanJobs(jobs, localExists).raised
    ensures ActionCheckFailed !in ScanJobs(jobs, localExists).warnings
    ensures var r := ScanJobs(jobs, localExists);
      forall j :: 0 <= j < |jobs| ==> StepsReported(JobSteps(jobs[j].val), r.actions, r.warnings, localExists)
    decreases |jobs|
  {
    if jobs != [] {
      var r := ScanJobs(jobs, localExists);
      var rest := ScanJobs(jobs[1..], localExists);
      var here := ScanJob(jobs[0].val, localExists);
      StepsJobScan(jobs[0].val, localExists);
      StepsJobsTail(jobs);
      ScanJobsComplete(jobs[1..], localExists);
      ScanJobsUnfold(jobs, localExists);
      StepsReportedGrows(JobSteps(jobs[0].val), here.actions, here.warnings, r.actions, r.warnings, localExists);
      JobsReportedGrows(jobs[1..], rest.actions, rest.warnings, r.actions, r.warnings, localExists);
      JobsReportedCons(jobs, r.actions, r.warnings, localExists);
    }
  }

  /** Nothing is missed in a workflow whose `jobs` is a mapping of such jobs:
      there is no error warning, and every step reference of every job is
      reported. */
  lemma {:induction false} ScanWorkflowComplete(es: seq<Entry>, jobs: seq<Entry>, localExists: string -> bool)
    requires Lookup(es, VStr("jobs")) == Some(VMap(jobs))
    requires StepsJobs(jobs)
    ensures ActionCheckFailed !in ScanWorkflow(es, localExists).warnings
    ensures var r := ScanWorkflow(es, localExists);
      forall j :: 0 <= j < |jobs| ==> StepsReported(JobSteps(jobs[j].val), r.actions, r.warnings, localExists)
  {
    ScanJobsComplete(jobs, localExists);
    var s := ScanJobs(jobs, localExists);
    assert ScanWorkflow(es, localExists) == ActionResult(s.actions, s.warnings + []);
    assert s.warnings + [] == s.warnings;
  }

  /** The same for the whole check of a workflow file whose text loads to
      such a mapping. */
  lemma {:induction false} ValidateActionReferencesComplete(text: string, load: string -> Loaded,
                                                            localExists: string -> bool,
                                                            es: seq<Entry>, jobs: seq<Entry>)
    requires !AllSpace(text)
    requires load(text) == Doc(VMap(es))
    requires Lookup(es, VStr("jobs")) == Some(VMap(jobs))
    requires StepsJobs(jobs)
    ensures ActionCheckFailed !in ValidateActionReferences(Read(text), load, localExists).warnings
    ensures var r := ValidateActionReferences(Read(text), load, localExists);
      forall j :: 0 <= j < |jobs| ==> StepsReported(JobSteps(jobs[j].val), r.actions, r.warnings, localExists)
  {
    ScanWorkflowComplete(es, jobs, localExists);
  }

  // ------------------------------------------------------ validation run

  /** One workflow file's checks; secret scanning is represented only by
      its warning count. */
  datatype WorkflowReport = WorkflowReport(syntax: SyntaxResult, triggers: TriggerResult,
                                           actions: ActionResult, secretWarnings: nat)

  function ReportErrors(w: WorkflowReport): nat {
    |w.syntax.errors|
  }

  function ReportWarnings(w: WorkflowReport): nat {
    |w.triggers.warnings| + |w.actions.warnings| + w.secretWarnings
  }

  /** `run_workflow_validation`'s summary counts. */
  datatype Summary = Summary(total: nat, valid: nat, warnings: nat, errors: nat)

  /** The counts over the reports, workflow by workflow. */
  function Tally(reports: seq<WorkflowReport>): (s: Summary)
    ensures s.total == |reports|
  {
    if reports == [] then Summary(0, 0, 0, 0)
    else
      var rest := Tally(reports[1..]);
      var w := reports[0];
      Summary(rest.total + 1, rest.valid + (if ReportErrors(w) == 0 then 1 else 0),
              rest.warnings + ReportWarnings(w), rest.errors + ReportErrors(w))
  }

  /** The counts are sums over the workflows: tallying two runs of reports
      one after the other adds their counts. */
  lemma {:induction false} TallyAppend(a: seq<WorkflowReport>, b: seq<WorkflowReport>)
    ensures var s, sa, sb := Tally(a + b), Tally(a), Tally(b);
      && s.total == sa.total + sb.total && s.valid == sa.valid + sb.valid
      && s.warnings == sa.warnings + sb.warnings && s.errors == sa.errors + sb.errors
    decreases |a|
  {
    if a == [] {
      assert a + b == b;
    } else {
      assert (a + b)[0] == a[0];
      assert (a + b)[1..] == a[1..] + b;
      TallyAppend(a[1..], b);
    }
  }

  /** The number of reports whose structure check passed. */
  function CountValid(reports: seq<WorkflowReport>): nat {
    if reports == [] then 0 else (if reports[0].syntax.valid then 1 else 0) + CountValid(reports[1..])
  }

  /** Reports as the structure check makes them: valid exactly when error-free. */
  predicate Consistent(reports: seq<WorkflowReport>) {
    forall i :: 0 <= i < |reports| ==> (reports[i].syntax.valid <==> reports[i].syntax.errors == [])
  }

  /** The valid count counts the valid workflows, never exceeds the total,
      and every workflow is valid exactly when no error was counted. */
  lemma {:induction false} TallyCounts(reports: seq<WorkflowReport>)
    requires Consistent(reports)
    ensures Tally(reports).valid == CountValid(reports) <= |reports|
    ensures Tally(reports).errors == 0 <==> Tally(reports).valid == |reports|
    decreases |reports|
  {
    if reports != [] {
      assert Consistent(reports[1..]) by {
        forall i | 0 <= i < |reports[1..]|
          ensures reports[1..][i].syntax.valid <==> reports[1..][i].syntax.errors == []
        {
          assert reports[1..][i] == reports[i + 1];
        }
      }
      TallyCounts(reports[1..]);
    }
  }

  /** One file's report: the three checks on the same text. */
  function CheckFile(read: FileRead, load: string -> Loaded, localExists: string -> bool,
                     secretWarnings: nat): (w: WorkflowReport)
    ensures w.syntax.valid <==> ReportErrors(w) == 0
  {
    WorkflowReport(ValidateWorkflowSyntax(read, load), CheckWorkflowTriggers(read, load),
                   ValidateActionReferences(read, load, localExists), secretWarnings)
  }

  /** The files' reports. */
  function CheckFiles(files: seq<FileRead>, load: string -> Loaded, localExists: string -> bool,
                      secretWarnings: FileRead -> nat): (r: seq<WorkflowReport>)
    ensures |r| == |files| && Consistent(r)
    ensures forall i :: 0 <= i < |files| ==> r[i] == CheckFile(files[i], load, localExists, secretWarnings(files[i]))
  {
    seq(|files|, i requires 0 <= i < |files| => CheckFile(files[i], load, localExists, secretWarnings(files[i])))
  }

  /** `run_workflow_validation`: a missing workflows directory counts one
      error and no workflow; otherwise every file is checked and counted. */
  function RunWorkflowValidation(dirExists: bool, files: seq<FileRead>, load: string -> Loaded,
                                 localExists: string -> bool, secretWarnings: FileRead -> nat): (s: Summary)
    ensures !dirExists ==> s == Summary(0, 0, 0, 1)
    ensures dirExists ==> s.total == |files| && s.valid <= s.total
    ensures dirExists ==> (s.errors == 0 <==> s.valid == s.total)
  {
    if !dirExists then Summary(0, 0, 0, 1)
    else
      var reports := CheckFiles(files, load, localExists, secretWarnings);
      TallyCounts(reports);
      Tally(reports)
  }

  /** With the directory present, the run has no error exactly when every
      file passes the structure check. */
  lemma {:induction false} RunErrorFree(files: seq<FileRead>, load: string -> Loaded,
                                       localExists: string -> bool, secretWarnings: FileRead -> nat)
    ensures RunWorkflowValidation(true, files, load, localExists, secretWarnings).errors == 0
        <==> forall i :: 0 <= i < |files| ==> ValidateWorkflowSyntax(files[i], load).valid
  {
    var reports := CheckFiles(files, load, localExists, secretWarnings);
    TallyCounts(reports);
    AllValidCount(reports);
  }

  /** Every report is valid exactly when the valid count is the total. */
  lemma {:induction false} AllValidCount(reports: seq<WorkflowReport>)
    ensures CountValid(reports) == |reports| <==> forall i :: 0 <= i < |reports| ==> reports[i].syntax.valid
    ensures CountValid(reports) <= |reports|
    decreases |reports|
  {
    if reports != [] {
      AllValidCount(reports[1..]);
      assert forall i :: 1 <= i < |reports| ==> reports[i] == reports[1..][i - 1];
    }
  }
}

=== FILE: wrappers.dfy ===
/** Failure-carrying datatypes shared by every module of the model. */
module Wrappers {

  /** A value that may be absent (Python's `None`, Rust's `Option`). */
  datatype Option<+T> = None | Some(value: T)

  /** The outcome of an operation that can fail with an error value
      (Rust's `Result`, or a Python call that raises). */
  datatype Result<+T, +E> = Ok(value: T) | Err(error: E)
}
